=== FILE: README.md ===
# Poll app core in Dafny

A model of the rules at the heart of a small poll web application: people create a poll with a question, at least two options, a deadline and an eight-character access code; voters join with the code, vote once per poll per email address, and see the results as a pie chart.

The model covers:

- **The two API endpoints.** `POST /api/polls` and `POST /api/votes` are pure functions. Each maps an in-memory store of polls, options and votes, a request body and the current instant to a response and the new store.
  - The database is the `Store` datatype. A `.single()` query is `SingleOf`: a row only when exactly one row matches.
  - The ids the database generates are parameters. An insert that reuses a stored id fails.
  - Each transport failure is a flag in a `Faults` record.
  - A run of requests is a fold (`Requests.Run`).
- **The request schemas.** Creating a poll and submitting a vote are checked as issue lists, in Zod's order: fields in schema order, and the array's count issue before its element issues. Each list is empty exactly when a readable predicate holds.
  - Email, UUID and date parsing are the function-typed fields of a `Validators` record.
  - An unparsable date is `None`. Every comparison with it is false, as it is for an invalid `Date`.
- **The client-side rules:**
  - the poll form's option-list edits and what its submission shows;
  - the mapping from validation issues to field-error keys;
  - the join page's code normalisation and lookup handling;
  - the vote form's status-to-message mapping and redirect;
  - the angle bookkeeping of the pie chart;
  - the share-link builder.

Each module follows one source file, except for four shared ones. `Common` holds helpers: optional values, JavaScript's `||` on strings, upper-casing, decimal text and filtering. `Store` holds the records of `src/types/index.ts` and the database queries. `FieldErrors` holds the issue-to-error-key mapping that both forms share. `Requests` runs sequences of requests.

The access code comes from `nanoid(8)`. Here it is a parameter `draw: nat -> string`, where `draw(k)` is the code the k-th call returns.

In one place the code and its comment disagree. The comment in `src/lib/validations.ts` says the deadline gets seconds and a timezone appended. The code appends only `":00"`, so the model appends only `":00"` (`Validations.NormaliseDeadline`).

## Model

| member | source | states |
|---|---|---|
| Common.OrElse | src/app/join/page.tsx:42 | JavaScript's logical or on an optional string: the value when it is present and non-empty, the fallback otherwise |
| Common.Upper | src/app/api/polls/route.ts:30 | upper-casing keeps the length, maps every character through the ASCII upper-case map, and leaves no lower-case ASCII letter |
| Common.UpperIsUpper | src/app/api/polls/route.ts:30 | an upper-cased string has no lower-case ASCII letter, and upper-casing it again changes nothing |
| Common.UpperChar | src/app/api/polls/route.ts:30 | a lower-case ASCII letter becomes its capital (32 code points lower), every other character is kept, and no lower-case letter results |
| Common.Decimal | src/components/PollForm.tsx:81 | `String(n)` of an array index is a non-empty string of decimal digits that spells n, with no leading zero |
| Common.DecimalInjective | src/components/PollForm.tsx:81 | different indices are written differently |
| Common.Filter | src/components/PieChart.tsx:65 | `Array.filter` keeps exactly the elements satisfying the test, and no more elements than the input has |
| Store.SingleOf | src/app/api/votes/route.ts:28-32 | `.single()` gives a row exactly when one row matches, and that row is one of the matches |
| Store.PollsWithIdUnique | src/app/api/votes/route.ts:28-36 | with unique poll ids the poll lookup finds a row exactly when a poll with that id exists, and that row is the stored poll |
| Store.OptionsOfPollUnique | src/app/api/votes/route.ts:49-61 | with unique option ids the option lookup succeeds exactly when an option with that id belongs to that poll |
| Store.VotesByUnique | src/app/api/votes/route.ts:64-85 | with one vote per (poll, email) the duplicate lookup matches at most one vote, and exactly one when the voter has voted |
| Store.PollsWithCodeUnique | src/app/api/polls/route.ts:36-44 | with unique access codes the code lookup finds a row exactly when the code is in use |
| Validations.NameIssues | src/lib/validations.ts:4 | a name has no issue exactly when its length is between 1 and 255, and every issue is reported on that field |
| Validations.EmailIssues | src/lib/validations.ts:5 | an email has no issue exactly when the email check accepts it |
| Validations.UuidIssues | src/lib/validations.ts:21-22 | an id has no issue exactly when the UUID check accepts it |
| Validations.QuestionIssues | src/lib/validations.ts:6 | a question has no issue exactly when it has at least 5 characters, with no upper bound |
| Validations.ElementIssues | src/lib/validations.ts:7 | the option texts from a position on have no issue exactly when each has 1 to 500 characters; every issue is filed at the index of an option that breaks the bound, and every such option has an issue at its own index |
| Validations.OptionsIssues | src/lib/validations.ts:7 | the option list has no issue exactly when it has at least 2 entries of 1 to 500 characters; a short list's first issue is "At least 2 options required" |
| Validations.NormaliseDeadline | src/lib/validations.ts:12 | the deadline text is kept as a prefix; ":00" is appended exactly when it contains 'T', and otherwise it is unchanged |
| Validations.DeadlineIssues | src/lib/validations.ts:8-16 | a deadline has no issue exactly when its normalised text parses to an instant strictly after now |
| Validations.ParseCreatePoll | src/lib/validations.ts:3-18 | a poll body is accepted exactly when every field check passes; the parsed input copies the fields, and a missing visibility flag becomes true; a rejection lists at least one issue |
| Validations.ParseVote | src/lib/validations.ts:20-25 | a vote body is accepted exactly when both ids are UUIDs, the name has 1 to 255 characters and the email is valid; the parsed value is the body itself |
| VotesRoute.Response.Status | src/app/api/votes/route.ts:18-118 | the status of each vote response: 201 exactly for a created vote, 409 exactly for a repeat voter, 410 exactly for a closed poll, 404 exactly for an unknown poll, 400 exactly for an invalid body or option, 500 exactly for a failed duplicate check, a failed insert or a body that is not JSON |
| VotesRoute.Response.Error | src/app/api/votes/route.ts:15-123 | every response except a created vote carries an `error` text |
| VotesRoute.Post | src/app/api/votes/route.ts:5-126 | only a created vote changes the store, and it appends exactly that vote; 400 exactly for an invalid body; a body that is not JSON gives the unexpected-error 500; a failed poll lookup gives 404 before the later checks; then, in turn: a passed deadline gives 410, a failed option lookup gives 400, a failed duplicate check gives 500, a stored vote by the voter gives 409, and a failed insert gives 500; otherwise 201; 410 only when now is after a matching poll's deadline; 409 only when the voter already voted in the poll; the two 500s only on a fault or an id collision |
| VotesRoute.ExistingVoteConflicts | src/app/api/votes/route.ts:64-85 | once the earlier checks pass, a voter with a stored vote in the poll gets 409 and nothing is written |
| VotesRoute.VoteAtDeadlineIsOpen | src/app/api/votes/route.ts:39-46 | a vote at exactly the deadline instant is not refused as closed |
| VotesRoute.ForeignOptionRefused | src/app/api/votes/route.ts:49-61 | a valid vote for an open poll naming an option of another poll is refused as an invalid option |
| VotesRoute.PostKeepsOneVotePerVoter | src/app/api/votes/route.ts:64-97 | every submission keeps at most one vote per (poll, email) |
| VotesRoute.PostKeepsWellFormed | src/app/api/votes/route.ts:64-97 | every submission keeps all the store invariants: unique ids, unique codes, one vote per voter |
| VotesRoute.AppendVoteKeepsUniqueIds | src/app/api/votes/route.ts:88-97 | inserting a vote under an unused id keeps vote ids unique |
| VotesRoute.SecondVoteNotAdmitted | src/app/api/votes/route.ts:64-85 | after a voter's vote for a poll is created, a second one by the same email for that poll is not created, whatever option it names, and changes nothing |
| VotesRoute.AdmissionConditions | src/app/api/votes/route.ts:10-97 | in a well-formed store without faults, a vote is created exactly when it is valid, its poll exists and is open, its option belongs to the poll, the voter has not voted there and the new id is unused |
| PollsRoute.Response.Status | src/app/api/polls/route.ts:19-117 | the status of each creation response: 201 exactly for a created poll, 400 exactly for an invalid body, 500 for every failure |
| PollsRoute.Response.Error | src/app/api/polls/route.ts:16-116 | every response except a created poll carries an `error` text |
| PollsRoute.RetryLoop | src/app/api/polls/route.ts:34-48 | given which lookups report their candidate as taken, the loop makes at most five lookups in order and keeps the first candidate not reported as taken, or reports that all five were taken |
| PollsRoute.RetryLoopAgrees | src/app/api/polls/route.ts:34-48 | the loop's choice depends only on the lookups' reports: two readings that report alike on every attempt choose alike |
| PollsRoute.ChooseCode | src/app/api/polls/route.ts:29-48 | the retry loop looks up at most five candidates in order; it keeps the first one not reported as taken, or reports that all five were taken |
| PollsRoute.OptionRows | src/app/api/polls/route.ts:80-84 | one row per option, in input order, with the poll's id, the option's text, and display order equal to its index |
| PollsRoute.DeleteUndoesInsert | src/app/api/polls/route.ts:90-93 | deleting a poll just inserted under a fresh id restores the store |
| PollsRoute.Post | src/app/api/polls/route.ts:6-120 | 400 exactly for an invalid body; a body that is not JSON gives the unexpected-error 500; a valid body whose retry loop is exhausted gives the exhausted-code 500, and that happens only when all five candidates were taken; after a unique code, a failed poll insert gives 500, then a failed options insert gives 500, otherwise 201; a poll-insert 500 only on a fault or an id collision; on 201 the response echoes the id, question and deadline, the code is the retry loop's choice, an upper-cased candidate, and the store gains exactly the poll and its option rows; a failed options insert leaves the store as it was unless the rollback also fails; nothing else changes the store |
| PollsRoute.CreatedCodeIsFresh | src/app/api/polls/route.ts:36-44 | with unique codes and lookups that do not fail, a created poll's code was held by no earlier poll |
| PollsRoute.AppendPollKeepsUnique | src/app/api/polls/route.ts:57-69 | inserting a poll under a fresh id with an unused code keeps poll ids and access codes unique |
| PollsRoute.AppendRowsKeepsUnique | src/app/api/polls/route.ts:86-88 | inserting a batch of option rows whose ids collide with nothing keeps option ids unique |
| PollsRoute.PostKeepsWellFormed | src/app/api/polls/route.ts:29-98 | poll creation keeps all the store invariants when the code lookups do not fail |
| PollsRoute.Insert | src/app/api/polls/route.ts:57-98 | after a code is chosen: a poll insert that fails on a fault or an id collision leaves the store alone; a failed options insert is rolled back unless the delete also fails; otherwise the poll and its rows are appended and echoed back |
| PollsRoute.FailedLookupReusesCode | src/app/api/polls/route.ts:36-47 | as written, when the first candidate is a stored poll's code and its lookup fails, the poll is created with that code and two polls share it |
| PollsRoute.FailedLookupExample | src/app/api/polls/route.ts:36-47 | a concrete well-formed store, generator and failed lookup on which the endpoint as written creates a second poll with code "ABCDEFGH" |
| PollsRoute.ChooseCodeCorrected | src/app/api/polls/route.ts:34-48 | the corrected retry loop keeps a candidate only when its lookup succeeded and found no poll, treating a failed lookup like a collision; at most five lookups |
| PollsRoute.NoFailedLookupSameChoice | src/app/api/polls/route.ts:34-48 | when no lookup fails, the corrected loop makes the same choice as the loop as written |
| PollsRoute.ChooseCodeCorrectedIsFresh | src/app/api/polls/route.ts:34-48 | under unique codes the corrected loop only keeps an unused code, whichever lookups fail |
| PollsRoute.PostCorrected | src/app/api/polls/route.ts:6-120 | the endpoint with the corrected loop agrees with `Post` whenever the two loops choose alike, in particular when no lookup fails; a created poll gets the corrected loop's code; an exhausted corrected loop gives the exhausted-code 500, and a unique corrected code goes through the same poll insert, options insert and rollback as `Post`; poll creation never changes the votes |
| PollsRoute.CorrectedCodeIsFresh | src/app/api/polls/route.ts:34-69 | with the corrected loop, a created poll's code was held by no earlier poll, whichever lookups fail |
| PollsRoute.PostCorrectedKeepsWellFormed | src/app/api/polls/route.ts:29-98 | with the corrected loop, poll creation keeps all the store invariants under every fault combination |
| Requests.RunKeepsOneVotePerVoter | src/app/api/votes/route.ts:64-97 | any sequence of poll creations and vote submissions keeps at most one vote per (poll, email) |
| Requests.RunKeepsWellFormed | src/app/api/polls/route.ts:29-98 | any sequence of requests keeps every store invariant: with the corrected code loop always, with the loop as written when no code lookup fails |
| FieldErrors.PathKey | src/components/PollForm.tsx:81 | a one-segment path is keyed by that segment's text |
| FieldErrors.OptionKey | src/components/PollForm.tsx:81 | the issue of option i is keyed "options." followed by i in decimal |
| FieldErrors.OptionKeysDistinct | src/components/PollForm.tsx:79-83 | two different options never share an error key, so their messages are never merged |
| FieldErrors.LastWinsKeys | src/components/PollForm.tsx:79-83 | assigning entries in order into an empty map gives exactly the entries' keys |
| FieldErrors.LastWinsValue | src/components/PollForm.tsx:79-83 | each key holds the value of the last entry with that key |
| FieldErrors.Entries | src/components/PollForm.tsx:80-82 | each issue becomes one (joined path, message) entry, in order |
| FieldErrors.ErrorMap | src/components/PollForm.tsx:79-84 | the error map has exactly the issues' keys, and each key shows the message of the last issue with that key |
| PollForm.InitialForm | src/components/PollForm.tsx:17-24 | the form starts with exactly two empty options, empty text fields and results shown |
| PollForm.AddOption | src/components/PollForm.tsx:26-31 | adding appends exactly one empty option and keeps the earlier ones |
| PollForm.DropAt | src/components/PollForm.tsx:37 | filtering out one index removes exactly that element and keeps the order of the rest; an index outside the list changes nothing |
| PollForm.RemoveOption | src/components/PollForm.tsx:33-39 | removing does nothing while two or fewer options remain; otherwise it removes exactly the element at the index; an out-of-range index changes nothing |
| PollForm.ReplaceAt | src/components/PollForm.tsx:44 | mapping over the list replaces exactly the element at the index, or nothing when the index is outside |
| PollForm.ChangeOption | src/components/PollForm.tsx:41-46 | changing an option replaces only that element and keeps the length; an out-of-range index changes nothing |
| PollForm.RemoveUndoesAdd | src/components/PollForm.tsx:26-39 | removing the option just added gives the list back |
| PollForm.EditsKeepTwoOptions | src/components/PollForm.tsx:26-46 | from two or more options, any sequence of add, remove and change edits keeps at least two |
| PollForm.BodyOf | src/components/PollForm.tsx:55-61 | the request body carries the form's name, email, question, options and deadline unchanged, and always its visibility flag |
| PollForm.BodyReadsBackAsForm | src/components/PollForm.tsx:55-61 | when the endpoint's schema accepts the body, it reads back exactly the form, a hidden-results choice included |
| PollForm.AsWrittenHidesServerError | src/components/PollForm.tsx:64-67 | read from `message`, every server failure shows the generic text, although each server failure carries a different text of its own |
| PollForm.FailureTextShowsServerError | src/components/PollForm.tsx:64-67 | read from `error`, the user sees the server's own failure text |
| PollForm.Submit | src/components/PollForm.tsx:48-93 | an invalid form shows the error map of its issues; a created poll navigates to the success page with its id and code; any other JSON answer shows "Failed to create poll", because the text is read from the absent `message` field; a failed fetch or a reply that is not JSON throws and ends in the runtime's own error text |
| PollForm.SubmitCorrected | src/components/PollForm.tsx:64-67 | the corrected submission agrees with `Submit` except on a server failure, where it shows the server's own `error` text |
| PollForm.SubmitHidesServerError | src/components/PollForm.tsx:64-67 | as written, a valid form gets the same text for every server refusal; the corrected form gives different refusals different texts |
| JoinPage.NormaliseCode | src/app/join/page.tsx:18 | the code is the first min(8, length) characters of the input, upper-cased, and so has at most 8 characters and no lower-case letter |
| JoinPage.NormaliseIdempotent | src/app/join/page.tsx:18 | normalising twice is normalising once |
| JoinPage.StoredCodeSurvivesTyping | src/app/join/page.tsx:18 | a stored eight-character code with no lower-case letter, typed with any of its letters in lower case, normalises to exactly the stored code |
| JoinPage.OnlyCaseVariantsMatch | src/app/join/page.tsx:18 | conversely, an eight-character entry normalises to a code only when it is that code up to the case of its letters |
| JoinPage.OnCodeChange | src/app/join/page.tsx:16-21 | an edit clears the error and stores the typed value normalised, a code of at most 8 characters that normalisation leaves unchanged |
| JoinPage.OnSubmit | src/app/join/page.tsx:23-56 | a code that is not 8 characters long is refused with its message and no lookup; otherwise the code is looked up; the page navigates to "/poll/..." exactly when no error is set, and only after an ok reply; 404 shows "not found"; any other failure with a JSON body shows the server's error or "Failed to find poll"; an ok JSON reply navigates to "/poll/" followed by its `poll_id`, or "undefined" when the field is absent; a failed fetch, or a reply other than 404 that is not JSON, shows the unexpected-error text |
| JoinPage.TypedCodeLooksUpStored | src/app/join/page.tsx:16-50 | a stored code typed with any of its letters in lower case is looked up as the stored code, and the page then behaves exactly as if the stored code had been typed |
| PieChart.ChartData | src/components/PieChart.tsx:65 | exactly the entries with a positive share are kept |
| PieChart.ChartDataKeepsOrder | src/components/PieChart.tsx:65 | filtering commutes with concatenation, so the kept entries stay in order |
| PieChart.Sweep | src/components/PieChart.tsx:83 | an entry sweeps its percentage of 360 degrees |
| PieChart.LargeArcFlag | src/components/PieChart.tsx:51 | the flag is 0 or 1, and 1 exactly when the arc spans more than 180 degrees |
| PieChart.StartOfNext | src/components/PieChart.tsx:96 | each start angle is the previous start plus the previous entry's sweep |
| PieChart.Layout | src/components/PieChart.tsx:80-98 | segment i is `SegmentAt(chart, i)`, from the i-th running angle to the next; one segment per entry with its data and colour `COLORS[i mod 10]`; the first starts at -90; each starts where the previous ended and sweeps its share; the last ends at -90 plus 3.6 times the total |
| PieChart.LayoutShape | src/components/PieChart.tsx:81-96 | segments placed at the running angles are contiguous, start at -90, sweep their entries' shares, and end at -90 plus 3.6 times the total |
| PieChart.Render | src/components/PieChart.tsx:61-98 | no segments exactly when no entry has a positive share; otherwise segment i is `SegmentAt` of the kept entries: the i-th kept entry, colour `COLORS[i mod 10]`, from the i-th running angle to the next, starting at -90 |
| PieChart.FullPieEndsAtTop | src/components/PieChart.tsx:81-96 | when the shares sum to 100, the last segment of the layout ends at 270 degrees, a full turn from the start |
| PieChart.TwoWithinTotal | src/components/PieChart.tsx:65-83 | with positive shares, any two entries add up to no more than the total |
| PieChart.OneWithinTotal | src/components/PieChart.tsx:65-83 | with positive shares, each entry is at most the total |
| PieChart.NonNegativeTotal | src/components/PieChart.tsx:65-83 | positive shares have a non-negative total |
| PieChart.AtMostOneLargeArc | src/components/PieChart.tsx:51-96 | when the shares add up to at most 100, at most one entry sweeps more than half a turn, so at most one segment gets the large-arc flag |
| VoteForm.Payload | src/components/VoteForm.tsx:36-39 | the payload is the form's fields plus the poll id from the page |
| VoteForm.FailureMessage | src/components/VoteForm.tsx:50-58 | 409 and 410 have the form's own texts; any other failed status shows the server's error or the fallback |
| VoteForm.RedirectTarget | src/components/VoteForm.tsx:65-71 | the results page when results are shown, the home page otherwise |
| VoteForm.Submit | src/components/VoteForm.tsx:29-71 | an invalid form shows its field errors; the vote is confirmed exactly when the form is valid and the reply is ok with a JSON body; a valid form whose reply failed with a JSON body shows exactly the status's message; a failed fetch, or a reply that is not JSON, ends in a runtime error whatever the status |
| VoteForm.SubmitAgainstEndpoint | src/components/VoteForm.tsx:48-58 | against the vote endpoint, a valid form is confirmed exactly when the vote was created; a refusal shows the endpoint's text, or the form's own text for 409 and 410 |
| ShareUrl.BaseUrl | src/lib/utils.ts:14 | the configured URL when it is set and non-empty, "http://localhost:3000" otherwise |
| ShareUrl.GenerateShareUrl | src/lib/utils.ts:13-16 | the link starts with the base and "/poll/", and its length is theirs plus the poll id's |
| ShareUrl.PollIdOfShareUrl | src/lib/utils.ts:15 | a link yields an id exactly when it starts with the base and "/poll/", and the link is that prefix followed by the id |
| ShareUrl.ShareUrlRoundTrip | src/lib/utils.ts:13-16 | the poll id is recovered verbatim from its share link |
| ShareUrl.ShareUrlInjective | src/lib/utils.ts:13-16 | different polls get different share links |

## Left out

- Supabase client, queries, inserts and deletes: replaced by the in-memory `Store`. Transport failures are the flags in `Faults`. `src/lib/supabase/client.ts` and the server client are not part of this model.
- Concurrency: two requests that run between each other's lookup and insert can break one vote per voter or code uniqueness. The model runs requests one at a time (`Requests.Run`), so it states these invariants only for sequential runs.
- nanoid's randomness: it is the parameter `draw`. Nothing checks that its codes have 8 characters.
- Clocks and date parsing: `new Date()` is the integer `now`, and `Date` parsing is `Validators.parseDate`. `formatDate` and `cn` in `src/lib/utils.ts` are display helpers.
- Zod's email and UUID regexes: they are the abstract `Validators.isEmail` and `Validators.isUuid`. The exact texts of Zod's built-in messages are kept, but not its other issue fields (codes, bounds).
- Request bodies with missing or wrongly typed fields: a body is either not JSON (`None`) or has every field as a string. Zod's type errors for other shapes are left out; only the visibility flag may be absent.
- Creation timestamps (`created_at` and similar): they are database defaults the rules never read.
- Pie rendering: the trigonometry and the SVG path text are left out, as are the hover state and the legend. Angles are exact reals, not floating point.
- React state, hooks, the 2-second redirect timer, and the clipboard.
- Exceptions whose text the runtime supplies, such as a failed fetch or a reply that is not JSON. They are `VoteForm.RuntimeError` and `PollForm.RuntimeError`, or the unexpected-error text on the join page.
- `src/components/ResultsChart.tsx` (realtime subscription and result fetching), and the presentation pages and components.
- Common.Upper: JavaScript `toUpperCase` also maps non-ASCII letters and can change a string's length. The model upper-cases ASCII letters only.
- Common.UpperChar: non-ASCII letters keep their case, for the reason on the Common.Upper line.
- JoinPage.NormaliseCode: upper-cases ASCII letters only, as on the Common.Upper line, and cuts after 8 Unicode characters where `slice` counts UTF-16 code units.
- Validations.NameIssues: Zod measures length in UTF-16 code units; the model counts Unicode characters.
- Validations.QuestionIssues: the 5-character minimum counts Unicode characters, not UTF-16 code units.
- Validations.OptionsIssues: the 1 to 500 character bounds count Unicode characters, not UTF-16 code units.
- Validations.ElementIssues: the same character counting as on the Validations.OptionsIssues line.
- PollForm.RemoveOption: the source checks the two-option guard against the list as last rendered, but filters the latest state. The model uses one list for both, so it leaves out two removals queued within a single render.
- PollsRoute.CreatedCodeIsFresh: a failed code lookup reads as free in the code as written (see "## Findings"), and a lookup that matches several polls also reads as free. So the lemma assumes lookups that do not fail, and unique codes. PollsRoute.PostKeepsWellFormed assumes the same; the corrected loop needs neither assumption.
- Database constraints: a unique constraint on `access_code` would turn the reused code of the finding below into a failed insert. The database schema is not part of this model, so the model assumes no such constraint.

## Findings

| source | as written | input that shows it | evidently intended | confidence | as-written member | corrected member |
|---|---|---|---|---|---|---|
| src/app/api/polls/route.ts:36-47 | the uniqueness lookup keeps only `data`; a query that fails yields no data, so the code counts as free | a store holding one poll with code "ABCDEFGH", a generator whose first code is "abcdefgh", and a failed first lookup: the new poll gets "ABCDEFGH" too | a failed lookup is not evidence that the code is free, so draw again (or stop) instead of keeping the code | not executed | PollsRoute.FailedLookupReusesCode | PollsRoute.ChooseCodeCorrected |
| src/components/PollForm.tsx:64-67 | on a failed request the form shows the body's `message` field, or "Failed to create poll" | any 500 from `POST /api/polls`, whose body is `{ error: "Failed to create poll. Please try again." }` with no `message` field: the form shows "Failed to create poll" | show the server's `error` text, which is the field the endpoint fills in | not executed | PollForm.Submit | PollForm.SubmitCorrected |

`PollsRoute.Post` models the retry loop as written through `ChooseCode`. `PollsRoute.FailedLookupReusesCode` exhibits the reused code, and `PollsRoute.FailedLookupExample` instantiates it. `PollsRoute.PostCorrected` uses `ChooseCodeCorrected`, which reads a failed lookup as taken. For it, `CorrectedCodeIsFresh` and `PostCorrectedKeepsWellFormed` hold with no assumption about failed lookups. `Requests.Run` takes the choice of loop as a parameter, and `Requests.RunKeepsWellFormed` states the invariant for both.

`PollForm.Submit` models the code as written: it reads `FailureTextAsWritten`. `PollForm.AsWrittenHidesServerError` and `PollForm.SubmitHidesServerError` exhibit the discrepancy. `PollForm.SubmitCorrected` reads the `error` field through `FailureText`. `PollForm.FailureTextShowsServerError` proves that the corrected form shows the server's own text.

=== FILE: common.dfy ===
/** Small helpers shared by the whole model: optional values, the JavaScript
    `a || b` idiom on strings, ASCII upper-casing, decimal rendering of
    array indices and an order-preserving filter over sequences. */
module Common {

  datatype Option<+T> = None | Some(value: T)

  /** `s || fallback` in JavaScript when `s` may be undefined: an absent
      value and the empty string are both falsy and give `fallback`. */
  function OrElse(s: Option<string>, fallback: string): (r: string)
    ensures s.Some? && s.value != "" ==> r == s.value
    ensures s.None? || s.value == "" ==> r == fallback
  {
    if s.Some? && s.value != "" then s.value else fallback
  }

  predicate IsLowerAscii(c: char) {
    'a' <= c <= 'z'
  }

  /** `toUpperCase` restricted to ASCII: lower-case letters move to upper
      case, every other character is kept. */
  function UpperChar(c: char): (u: char)
    ensures !IsLowerAscii(u)
    ensures IsLowerAscii(c) ==> u as int == c as int - 32
    ensures !IsLowerAscii(c) ==> u == c
  {
    if IsLowerAscii(c) then (c as int - 'a' as int + 'A' as int) as char else c
  }

  function Upper(s: string): (r: string)
    ensures |r| == |s|
    ensures forall i :: 0 <= i < |r| ==> r[i] == UpperChar(s[i])
  {
    seq(|s|, i requires 0 <= i < |s| => UpperChar(s[i]))
  }

  /** A string with no ASCII lower-case letter. */
  predicate NoLowerAscii(s: string) {
    forall i :: 0 <= i < |s| ==> !IsLowerAscii(s[i])
  }

  lemma UpperIsUpper(s: string)
    ensures NoLowerAscii(Upper(s))
    ensures Upper(Upper(s)) == Upper(s)
  {
  }

  predicate IsDigit(c: char) {
    '0' <= c <= '9'
  }

  function DigitChar(d: nat): (c: char)
    requires d < 10
    ensures IsDigit(c) && c as int - '0' as int == d
  {
    "0123456789"[d]
  }

  /** The number a string of decimal digits spells, most significant first. */
  function DigitsValue(s: string): int
    requires forall i :: 0 <= i < |s| ==> IsDigit(s[i])
    decreases |s|
  {
    if |s| == 0 then 0
    else DigitsValue(s[..|s| - 1]) * 10 + (s[|s| - 1] as int - '0' as int)
  }

  /** JavaScript `String(n)` for a non-negative integer: the digits that
      spell `n`, with no leading zero. */
  function Decimal(n: nat): (r: string)
    ensures |r| >= 1
    ensures forall i :: 0 <= i < |r| ==> IsDigit(r[i])
    ensures DigitsValue(r) == n
    ensures |r| > 1 ==> r[0] != '0'
    decreases n
  {
    if n < 10 then [DigitChar(n)]
    else
      var front := Decimal(n / 10);
      var r := front + [DigitChar(n % 10)];
      assert r[..|r| - 1] == front;
      r
  }

  /** Different numbers are written differently. */
  lemma DecimalInjective(m: nat, n: nat)
    requires Decimal(m) == Decimal(n)
    ensures m == n
  {
  }

  /** The elements of `s` that satisfy `keep`, in their original order. */
  function Filter<T>(s: seq<T>, keep: T -> bool): (r: seq<T>)
    ensures |r| <= |s|
    ensures forall i :: 0 <= i < |r| ==> r[i] in s && keep(r[i])
    ensures forall i :: 0 <= i < |s| && keep(s[i]) ==> s[i] in r
    decreases |s|
  {
    if |s| == 0 then []
    else if keep(s[0]) then [s[0]] + Filter(s[1..], keep)
    else Filter(s[1..], keep)
  }

  /** Filtering commutes with concatenation, so it keeps relative order. */
  lemma {:induction false} FilterAppend<T>(a: seq<T>, b: seq<T>, keep: T -> bool)
    ensures Filter(a + b, keep) == Filter(a, keep) + Filter(b, keep)
    decreases |a|
  {
    if |a| == 0 {
      assert a + b == b;
    } else {
      assert (a + b)[1..] == a[1..] + b;
      FilterAppend(a[1..], b, keep);
    }
  }

  /** Filtering a sequence with no kept element gives the empty sequence,
      and filtering one whose every element is kept gives it back. */
  lemma {:induction false} FilterExtremes<T>(s: seq<T>, keep: T -> bool)
    ensures (forall i :: 0 <= i < |s| ==> !keep(s[i])) ==> Filter(s, keep) == []
    ensures (forall i :: 0 <= i < |s| ==> keep(s[i])) ==> Filter(s, keep) == s
    decreases |s|
  {
    if |s| > 0 {
      FilterExtremes(s[1..], keep);
      assert forall i :: 0 <= i < |s[1..]| ==> s[1..][i] == s[i + 1];
    }
  }

  /** When no two elements are both kept, filtering yields the one kept
      element if there is one, and nothing otherwise. */
  lemma {:induction false} FilterUnique<T>(s: seq<T>, keep: T -> bool)
    requires forall i, j :: 0 <= i < j < |s| ==> !(keep(s[i]) && keep(s[j]))
    ensures |Filter(s, keep)| <= 1
    ensures forall i :: 0 <= i < |s| && keep(s[i]) ==> Filter(s, keep) == [s[i]]
    ensures (forall i :: 0 <= i < |s| ==> !keep(s[i])) ==> Filter(s, keep) == []
    decreases |s|
  {
    FilterExtremes(s, keep);
    if |s| > 0 {
      var rest := s[1..];
      assert forall i :: 0 <= i < |rest| ==> rest[i] == s[i + 1];
      FilterUnique(rest, keep);
      if keep(s[0]) {
        assert forall i :: 0 <= i < |rest| ==> !keep(rest[i]) by {
          forall i | 0 <= i < |rest| ensures !keep(rest[i]) {
            assert !(keep(s[0]) && keep(s[i + 1]));
          }
        }
        FilterExtremes(rest, keep);
      }
    }
  }
}

=== FILE: field_errors.dfy ===
/** How the two forms turn a list of validation issues into per-field error
    messages: each issue's path is joined with "." into a key ("options.1"
    for the second option), and a later issue with the same key replaces the
    message of an earlier one. */
module FieldErrors {
  import opened Common
  import opened Validations

  /** `String(segment)`: a key as is, an array index in decimal. */
  function SegmentText(p: PathSegment): string {
    match p
    case Key(name) => name
    case Index(i) => Decimal(i)
  }

  /** `path.join('.')`. */
  function PathKey(path: seq<PathSegment>): (k: string)
    ensures |path| == 1 ==> k == SegmentText(path[0])
    decreases |path|
  {
    if |path| == 0 then ""
    else if |path| == 1 then SegmentText(path[0])
    else PathKey(path[..|path| - 1]) + "." + SegmentText(path[|path| - 1])
  }

  /** The key under which the form shows the error of option `i`. */
  lemma OptionKey(i: nat)
    ensures PathKey([Key("options"), Index(i)]) == "options." + Decimal(i)
  {
  }

  /** Two different options never share an error key, so their messages
      are never merged. */
  lemma OptionKeysDistinct(i: nat, j: nat)
    requires i != j
    ensures PathKey([Key("options"), Index(i)]) != PathKey([Key("options"), Index(j)])
  {
    OptionKey(i);
    OptionKey(j);
    var prefix := "options.";
    assert Decimal(i) == (prefix + Decimal(i))[|prefix|..];
    assert Decimal(j) == (prefix + Decimal(j))[|prefix|..];
  }

  /** No later entry has the same key as entry `i`. */
  predicate LastWithKey(entries: seq<(string, string)>, i: int)
    requires 0 <= i < |entries|
  {
    forall j :: i < j < |entries| ==> entries[j].0 != entries[i].0
  }

  /** Assigning the entries one after another into an empty map. */
  function LastWins(entries: seq<(string, string)>): map<string, string>
    decreases |entries|
  {
    if |entries| == 0 then map[]
    else LastWins(entries[..|entries| - 1])[entries[|entries| - 1].0 := entries[|entries| - 1].1]
  }

  /** Exactly the keys of the entries end up in the map. */
  lemma {:induction false} LastWinsKeys(entries: seq<(string, string)>, k: string)
    ensures k in LastWins(entries) <==> exists i :: 0 <= i < |entries| && entries[i].0 == k
    decreases |entries|
  {
    if |entries| > 0 {
      var n := |entries| - 1;
      var init := entries[..n];
      LastWinsKeys(init, k);
      if exists i :: 0 <= i < |entries| && entries[i].0 == k {
        var i :| 0 <= i < |entries| && entries[i].0 == k;
        if i < n {
          assert init[i] == entries[i];
        }
      }
      if exists i :: 0 <= i < |init| && init[i].0 == k {
        var i :| 0 <= i < |init| && init[i].0 == k;
        assert entries[i] == init[i];
      }
    }
  }

  /** Each key holds the value of the last entry with that key. */
  lemma {:induction false} LastWinsValue(entries: seq<(string, string)>, i: int)
    requires 0 <= i < |entries| && LastWithKey(entries, i)
    ensures entries[i].0 in LastWins(entries) && LastWins(entries)[entries[i].0] == entries[i].1
    decreases |entries|
  {
    var n := |entries| - 1;
    if i < n {
      var init := entries[..n];
      assert init[i] == entries[i];
      assert LastWithKey(init, i) by {
        forall j | i < j < |init| ensures init[j].0 != init[i].0 {
          assert init[j] == entries[j];
        }
      }
      LastWinsValue(init, i);
    }
  }

  /** Each issue as a (key, message) entry. */
  function Entries(issues: seq<Issue>): (e: seq<(string, string)>)
    ensures |e| == |issues|
    ensures forall i :: 0 <= i < |e| ==> e[i] == (PathKey(issues[i].path), issues[i].message)
  {
    seq(|issues|, i requires 0 <= i < |issues| => (PathKey(issues[i].path), issues[i].message))
  }

  /** The error map the forms build from a validation failure: exactly the
      issues' keys, each showing the message of the last issue with it. */
  function ErrorMap(issues: seq<Issue>): (m: map<string, string>)
    ensures forall k :: k in m <==> exists i :: 0 <= i < |issues| && PathKey(issues[i].path) == k
    ensures forall i :: 0 <= i < |issues| && LastWithKey(Entries(issues), i) ==>
      PathKey(issues[i].path) in m && m[PathKey(issues[i].path)] == issues[i].message
  {
    var e := Entries(issues);
    forall k ensures k in LastWins(e) <==> exists i :: 0 <= i < |issues| && PathKey(issues[i].path) == k {
      LastWinsKeys(e, k);
    }
    forall i | 0 <= i < |issues| && LastWithKey(e, i)
      ensures PathKey(issues[i].path) in LastWins(e) && LastWins(e)[PathKey(issues[i].path)] == issues[i].message
    {
      LastWinsValue(e, i);
    }
    LastWins(e)
  }
}

=== FILE: join_page.dfy ===
/** The join page: every edit of the code field is upper-cased and cut to
    eight characters, and a submission looks the code up only when it has
    exactly eight characters. */
module JoinPage {
  import opened Common

  const CodeLength := 8

  const WrongLength := "Access code must be exactly 8 characters"
  const NotFound := "Poll not found. Please check the access code and try again."
  const LookupFailed := "Failed to find poll"
  const UnexpectedError := "An unexpected error occurred. Please try again."

  /** `value.toUpperCase().slice(0, 8)`. */
  function NormaliseCode(input: string): (r: string)
    ensures |r| <= CodeLength
    ensures |r| == if |input| < CodeLength then |input| else CodeLength
    ensures forall i :: 0 <= i < |r| ==> r[i] == UpperChar(input[i])
    ensures NoLowerAscii(r)
  {
    var u := Upper(input);
    if |u| < CodeLength then u else u[..CodeLength]
  }

  /** Normalising twice is normalising once. */
  lemma NormaliseIdempotent(input: string)
    ensures NormaliseCode(NormaliseCode(input)) == NormaliseCode(input)
  {
  }

  /** `typed` is `stored` with any of its letters possibly typed in lower
      case: each character is the stored one or its ASCII lower-case form. */
  predicate SameUpToCase(typed: string, stored: string) {
    && |typed| == |stored|
    && forall i :: 0 <= i < |typed| ==>
         typed[i] == stored[i] || (IsLowerAscii(typed[i]) && typed[i] as int - 32 == stored[i] as int)
  }

  /** A stored access code (eight characters, no lower-case letter, as the
      creation endpoint produces it) typed with its letters in any case
      normalises to exactly the stored code. */
  lemma StoredCodeSurvivesTyping(stored: string, typed: string)
    requires |stored| == CodeLength && NoLowerAscii(stored)
    requires SameUpToCase(typed, stored)
    ensures NormaliseCode(typed) == stored
  {
    var r := NormaliseCode(typed);
    forall i | 0 <= i < |r| ensures r[i] == stored[i] {
      if IsLowerAscii(typed[i]) {
        assert r[i] as int == stored[i] as int;
      }
    }
  }

  /** Conversely, an eight-character entry matches a code only when it is
      that code up to the case of its letters. */
  lemma OnlyCaseVariantsMatch(stored: string, typed: string)
    requires |typed| == CodeLength && NormaliseCode(typed) == stored
    ensures SameUpToCase(typed, stored)
  {
    forall i | 0 <= i < |typed|
      ensures typed[i] == stored[i] || (IsLowerAscii(typed[i]) && typed[i] as int - 32 == stored[i] as int)
    {
      assert stored[i] == UpperChar(typed[i]);
    }
  }

  datatype JoinState = JoinState(code: string, error: Option<string>)

  const InitialJoin := JoinState("", None)

  /** An edit of the field stores the normalised text and clears the error. */
  function OnCodeChange(st: JoinState, value: string): (r: JoinState)
    ensures r.error.None?
    ensures r.code == NormaliseCode(value)
    ensures |r.code| <= CodeLength
    ensures NormaliseCode(r.code) == r.code
  {
    NormaliseIdempotent(value);
    JoinState(NormaliseCode(value), None)
  }

  /** The JSON body of the lookup response, as far as the page reads it. */
  datatype LookupBody = LookupBody(error: Option<string>, pollId: Option<string>)

  /** The lookup's reply: a status and a body that may fail to parse as
      JSON, or a failed fetch. */
  datatype Reply = Reply(status: int, body: Option<LookupBody>) | NetworkFailure

  predicate Ok(status: int) {
    200 <= status <= 299
  }

  datatype SubmitResult = SubmitResult(
    state: JoinState,
    request: Option<string>,    // the lookup URL, when one is fetched
    navigate: Option<string>)   // where the page goes on success

  function LookupUrl(code: string): string {
    "/api/polls/by-code/" + code
  }

  /** Submitting: a code that is not eight characters long is refused on the
      spot; otherwise the reply to the lookup decides. */
  function OnSubmit(st: JoinState, reply: Reply): (r: SubmitResult)
    ensures |st.code| != CodeLength ==>
      r.request.None? && r.navigate.None? && r.state.error == Some(WrongLength)
    ensures |st.code| == CodeLength ==> r.request == Some(LookupUrl(st.code))
    ensures r.state.code == st.code
    ensures r.navigate.Some? <==> r.state.error.None?
    ensures r.navigate.Some? ==>
      reply.Reply? && Ok(reply.status) && reply.body.Some? && "/poll/" <= r.navigate.value
    ensures |st.code| == CodeLength && reply.Reply? && reply.status == 404 ==> r.state.error == Some(NotFound)
    ensures |st.code| == CodeLength && reply.Reply? && !Ok(reply.status) && reply.status != 404 && reply.body.Some? ==>
      r.state.error == Some(OrElse(reply.body.value.error, LookupFailed))
    // an ok JSON reply navigates to the poll, an absent id reading as "undefined"
    ensures |st.code| == CodeLength && reply.Reply? && Ok(reply.status) && reply.body.Some? ==>
      r.navigate == Some("/poll/" + (if reply.body.value.pollId.Some? then reply.body.value.pollId.value else "undefined"))
    // a failed fetch, or a reply other than 404 that is not JSON
    ensures |st.code| == CodeLength && (reply.NetworkFailure? || (reply.body.None? && reply.status != 404)) ==>
      r.state.error == Some(UnexpectedError)
  {
    if |st.code| != CodeLength then SubmitResult(st.(error := Some(WrongLength)), None, None)
    else
      var request := Some(LookupUrl(st.code));
      match reply
      case NetworkFailure => SubmitResult(st.(error := Some(UnexpectedError)), request, None)
      case Reply(status, body) =>
        if !Ok(status) then
          if status == 404 then SubmitResult(st.(error := Some(NotFound)), request, None)
          else if body.None? then SubmitResult(st.(error := Some(UnexpectedError)), request, None)
          else SubmitResult(st.(error := Some(OrElse(body.value.error, LookupFailed))), request, None)
        else if body.None? then SubmitResult(st.(error := Some(UnexpectedError)), request, None)
        else
          // an absent poll_id is interpolated as the text "undefined"
          var id := match body.value.pollId case Some(p) => p case None => "undefined";
          SubmitResult(st.(error := None), request, Some("/poll/" + id))
  }

  /** Typing a stored code in any letter case and submitting it looks up
      the stored code itself, and the page then behaves exactly as if the
      stored code had been typed. */
  lemma TypedCodeLooksUpStored(stored: string, typed: string, reply: Reply)
    requires |stored| == CodeLength && NoLowerAscii(stored)
    requires SameUpToCase(typed, stored)
    ensures OnSubmit(OnCodeChange(InitialJoin, typed), reply).request == Some(LookupUrl(stored))
    ensures OnSubmit(OnCodeChange(InitialJoin, typed), reply) == OnSubmit(JoinState(stored, None), reply)
  {
    StoredCodeSurvivesTyping(stored, typed);
  }
}

=== FILE: pie_chart.dfy ===
/** The angle bookkeeping of the results pie chart. Entries with no share
    are dropped; the rest are laid out clockwise from the top (-90 degrees),
    each segment starting where the previous one ended and sweeping its
    share of 360 degrees, coloured from a ten-colour palette by position.
    Angles are exact reals here; the trigonometry that turns them into
    SVG path text is not modelled. */
module PieChart {
  import opened Common

  datatype Entry = Entry(optionId: string, optionText: string, percentage: real, voteCount: int)

  datatype Segment = Segment(startAngle: real, endAngle: real, color: string, data: Entry)

  const Colors: seq<string> := [
    "#3b82f6", "#10b981", "#f59e0b", "#ef4444", "#8b5cf6",
    "#ec4899", "#06b6d4", "#84cc16", "#f97316", "#6366f1"]

  const StartAngle: real := -90.0

  predicate Shown(e: Entry) {
    e.percentage > 0.0
  }

  /** The entries that get a segment, in their original order. */
  function ChartData(data: seq<Entry>): (r: seq<Entry>)
    ensures |r| <= |data|
    ensures forall i :: 0 <= i < |r| ==> r[i] in data && r[i].percentage > 0.0
    ensures forall i :: 0 <= i < |data| && data[i].percentage > 0.0 ==> data[i] in r
  {
    Filter(data, Shown)
  }

  /** Dropping entries commutes with concatenation, so order is kept. */
  lemma ChartDataKeepsOrder(a: seq<Entry>, b: seq<Entry>)
    ensures ChartData(a + b) == ChartData(a) + ChartData(b)
  {
    FilterAppend(a, b, Shown);
  }

  /** Sum of the percentages. */
  function Total(entries: seq<Entry>): real
    decreases |entries|
  {
    if |entries| == 0 then 0.0 else Total(entries[..|entries| - 1]) + entries[|entries| - 1].percentage
  }

  /** The angle an entry sweeps: its share of a full turn. */
  function Sweep(e: Entry): (a: real)
    ensures a == 3.6 * e.percentage
  {
    e.percentage / 100.0 * 360.0
  }

  /** SVG's large-arc flag: set exactly for arcs wider than a half turn. */
  function LargeArcFlag(startAngle: real, endAngle: real): (flag: int)
    ensures flag == 0 || flag == 1
    ensures flag == 1 <==> endAngle - startAngle > 180.0
  {
    if endAngle - startAngle > 180.0 then 1 else 0
  }

  /** Where the segment of `chart[k]` starts: after the sweeps of all
      earlier entries. */
  function StartOf(chart: seq<Entry>, k: int): real
    requires 0 <= k <= |chart|
  {
    StartAngle + 3.6 * Total(chart[..k])
  }

  lemma StartOfNext(chart: seq<Entry>, k: int)
    requires 0 <= k < |chart|
    ensures StartOf(chart, k + 1) == StartOf(chart, k) + 3.6 * chart[k].percentage
  {
    assert chart[..k + 1][..k] == chart[..k];
  }

  /** The segment of `chart[k]`: from its running angle to the next one. */
  function SegmentAt(chart: seq<Entry>, k: int): Segment
    requires 0 <= k < |chart|
  {
    Segment(StartOf(chart, k), StartOf(chart, k + 1), Colors[k % |Colors|], chart[k])
  }

  /** The segments of `chart`, laid out one after another by a running angle. */
  method Layout(chart: seq<Entry>) returns (segs: seq<Segment>)
    ensures |segs| == |chart|
    ensures forall i :: 0 <= i < |segs| ==> segs[i] == SegmentAt(chart, i)
    ensures forall i :: 0 <= i < |segs| ==> segs[i].data == chart[i] && segs[i].color == Colors[i % |Colors|]
    ensures forall i :: 0 <= i < |segs| ==> segs[i].endAngle - segs[i].startAngle == 3.6 * chart[i].percentage
    ensures forall i :: 0 <= i < |segs| ==> segs[i].startAngle == StartOf(chart, i)
    ensures |segs| > 0 ==> segs[0].startAngle == StartAngle
    ensures forall i :: 0 <= i < |segs| - 1 ==> segs[i + 1].startAngle == segs[i].endAngle
    ensures |segs| > 0 ==> segs[|segs| - 1].endAngle == StartAngle + 3.6 * Total(chart)
  {
    var currentAngle := StartAngle;
    segs := [];
    var i := 0;
    while i < |chart|
      invariant 0 <= i <= |chart| && |segs| == i
      invariant currentAngle == StartOf(chart, i)
      invariant forall k :: 0 <= k < i ==> segs[k] == SegmentAt(chart, k)
    {
      var sweepAngle := Sweep(chart[i]);
      StartOfNext(chart, i);
      segs := segs + [Segment(currentAngle, currentAngle + sweepAngle, Colors[i % |Colors|], chart[i])];
      currentAngle := currentAngle + sweepAngle;
      i := i + 1;
    }
    LayoutShape(chart, segs);
  }

  /** Segments that start and end at the running angles of `chart` are
      contiguous, sweep their entries' shares, and span the whole total
      from the top. */
  lemma LayoutShape(chart: seq<Entry>, segs: seq<Segment>)
    requires |segs| == |chart|
    requires forall k :: 0 <= k < |segs| ==> segs[k].startAngle == StartOf(chart, k)
    requires forall k :: 0 <= k < |segs| ==> segs[k].endAngle == StartOf(chart, k + 1)
    ensures forall i :: 0 <= i < |segs| ==> segs[i].endAngle - segs[i].startAngle == 3.6 * chart[i].percentage
    ensures |segs| > 0 ==> segs[0].startAngle == StartAngle
    ensures forall i :: 0 <= i < |segs| - 1 ==> segs[i + 1].startAngle == segs[i].endAngle
    ensures |segs| > 0 ==> segs[|segs| - 1].endAngle == StartAngle + 3.6 * Total(chart)
  {
    forall k | 0 <= k < |segs| ensures segs[k].endAngle - segs[k].startAngle == 3.6 * chart[k].percentage {
      StartOfNext(chart, k);
    }
    assert chart[..0] == [];
    assert chart[..|chart|] == chart;
  }

  datatype Chart = NoVotes | Segments(segments: seq<Segment>)

  /** The chart for a result list: a "no votes" message when no entry has a
      share, one segment per shown entry otherwise. */
  method Render(data: seq<Entry>) returns (c: Chart)
    ensures c.NoVotes? <==> forall i :: 0 <= i < |data| ==> data[i].percentage <= 0.0
    ensures c.Segments? ==>
      && |c.segments| == |ChartData(data)|
      && (forall i :: 0 <= i < |c.segments| ==> c.segments[i] == SegmentAt(ChartData(data), i))
      && (forall i :: 0 <= i < |c.segments| ==> c.segments[i].data == ChartData(data)[i])
      && c.segments[0].startAngle == StartAngle
      && c.segments[|c.segments| - 1].endAngle == StartAngle + 3.6 * Total(ChartData(data))
  {
    var chartData := ChartData(data);
    FilterExtremes(data, Shown);
    if |chartData| == 0 {
      return NoVotes;
    }
    var segs := Layout(chartData);
    return Segments(segs);
  }

  /** A percentage list summing to 100 closes the circle: the last segment
      of the layout ends at 270 degrees, a full turn from the top. */
  lemma FullPieEndsAtTop(chart: seq<Entry>)
    requires |chart| > 0 && Total(chart) == 100.0
    ensures SegmentAt(chart, |chart| - 1).endAngle == 270.0
  {
    assert chart[..|chart|] == chart;
  }

  /** With positive shares, any two entries together count no more than the total. */
  lemma {:induction false} TwoWithinTotal(chart: seq<Entry>, i: int, j: int)
    requires forall k :: 0 <= k < |chart| ==> chart[k].percentage > 0.0
    requires 0 <= i < j < |chart|
    ensures chart[i].percentage + chart[j].percentage <= Total(chart)
    decreases |chart|
  {
    var n := |chart| - 1;
    var init := chart[..n];
    assert forall k :: 0 <= k < n ==> init[k] == chart[k];
    if j == n {
      OneWithinTotal(init, i);
    } else {
      TwoWithinTotal(init, i, j);
    }
  }

  lemma {:induction false} OneWithinTotal(chart: seq<Entry>, i: int)
    requires forall k :: 0 <= k < |chart| ==> chart[k].percentage > 0.0
    requires 0 <= i < |chart|
    ensures chart[i].percentage <= Total(chart)
    decreases |chart|
  {
    var n := |chart| - 1;
    var init := chart[..n];
    assert forall k :: 0 <= k < n ==> init[k] == chart[k];
    NonNegativeTotal(init);
    if i < n {
      OneWithinTotal(init, i);
    }
  }

  lemma {:induction false} NonNegativeTotal(chart: seq<Entry>)
    requires forall k :: 0 <= k < |chart| ==> chart[k].percentage > 0.0
    ensures Total(chart) >= 0.0
    decreases |chart|
  {
    if |chart| > 0 {
      var init := chart[..|chart| - 1];
      assert forall k :: 0 <= k < |init| ==> init[k] == chart[k];
      NonNegativeTotal(init);
    }
  }

  /** When the shares add up to at most 100, at most one entry sweeps more
      than a half turn, so at most one segment of a layout carries the
      large-arc flag (`Layout` makes each segment's sweep the entry's
      `Sweep`, and `LargeArcFlag` is set exactly above 180 degrees). The
      percentages a chart is given are rounded one by one, so their total
      can exceed 100 (5 and 3 votes give 63 and 38); such charts are not
      covered here. */
  lemma AtMostOneLargeArc(chart: seq<Entry>, i: int, j: int)
    requires forall k :: 0 <= k < |chart| ==> chart[k].percentage > 0.0
    requires Total(chart) <= 100.0
    requires 0 <= i < j < |chart|
    ensures Sweep(chart[i]) <= 180.0 || Sweep(chart[j]) <= 180.0
  {
    TwoWithinTotal(chart, i, j);
  }
}

=== FILE: poll_form.dfy ===
/** The poll-creation form: its initial state, the three option-list edits
    with their two-option minimum, and what a submission shows. */
module PollForm {
  import opened Common
  import opened Validations
  import opened FieldErrors
  import PollsRoute

  datatype FormData = FormData(
    creatorName: string,
    creatorEmail: string,
    question: string,
    options: seq<string>,
    deadline: string,
    showRealtimeResults: bool)

  /** The form as first shown: two empty options and results visible. */
  function InitialForm(): (f: FormData)
    ensures |f.options| == MinOptionCount
    ensures forall i :: 0 <= i < |f.options| ==> f.options[i] == ""
    ensures f.creatorName == "" && f.creatorEmail == "" && f.question == "" && f.deadline == ""
    ensures f.showRealtimeResults
  {
    FormData("", "", "", ["", ""], "", true)
  }

  // ---------------------------------------------------------------------
  // Option-list edits

  /** "+ Add Option": one empty option at the end. */
  function AddOption(options: seq<string>): (r: seq<string>)
    ensures |r| == |options| + 1
    ensures r[..|options|] == options && r[|options|] == ""
  {
    options + [""]
  }

  /** `filter((_, i) => i !== index)` over `options[from..]`, where `from` is
      the position of the first element in the whole list. */
  function DropAt(options: seq<string>, index: int, from: nat): (r: seq<string>)
    ensures from <= index < from + |options| ==>
      r == options[..index - from] + options[index - from + 1..]
    ensures !(from <= index < from + |options|) ==> r == options
    decreases |options|
  {
    if |options| == 0 then []
    else
      var rest := DropAt(options[1..], index, from + 1);
      if index == from then rest else [options[0]] + rest
  }

  /** "Remove": nothing happens while only two options remain; otherwise
      the option at `index` goes and the others keep their order. */
  function RemoveOption(options: seq<string>, index: int): (r: seq<string>)
    ensures |options| <= MinOptionCount ==> r == options
    ensures |options| > MinOptionCount && 0 <= index < |options| ==>
      r == options[..index] + options[index + 1..]
    ensures !(0 <= index < |options|) ==> r == options
  {
    if |options| <= MinOptionCount then options else DropAt(options, index, 0)
  }

  /** `map((opt, i) => i === index ? value : opt)` over `options[from..]`. */
  function ReplaceAt(options: seq<string>, index: int, value: string, from: nat): (r: seq<string>)
    ensures from <= index < from + |options| ==> r == options[index - from := value]
    ensures !(from <= index < from + |options|) ==> r == options
    decreases |options|
  {
    if |options| == 0 then []
    else [if index == from then value else options[0]] + ReplaceAt(options[1..], index, value, from + 1)
  }

  /** Typing into option `index`: that option alone takes the new text. */
  function ChangeOption(options: seq<string>, index: int, value: string): (r: seq<string>)
    ensures 0 <= index < |options| ==> r == options[index := value]
    ensures !(0 <= index < |options|) ==> r == options
  {
    ReplaceAt(options, index, value, 0)
  }

  /** Removing the option just added gives the list back. */
  lemma RemoveUndoesAdd(options: seq<string>)
    requires |options| >= MinOptionCount
    ensures RemoveOption(AddOption(options), |options|) == options
  {
  }

  datatype Edit = Add | Remove(index: int) | Change(index: int, value: string)

  function ApplyEdit(options: seq<string>, e: Edit): seq<string> {
    match e
    case Add => AddOption(options)
    case Remove(i) => RemoveOption(options, i)
    case Change(i, value) => ChangeOption(options, i, value)
  }

  function ApplyEdits(options: seq<string>, edits: seq<Edit>): seq<string>
    decreases |edits|
  {
    if |edits| == 0 then options else ApplyEdits(ApplyEdit(options, edits[0]), edits[1..])
  }

  /** No sequence of edits takes the list below two options. */
  lemma {:induction false} EditsKeepTwoOptions(options: seq<string>, edits: seq<Edit>)
    requires |options| >= MinOptionCount
    ensures |ApplyEdits(options, edits)| >= MinOptionCount
    decreases |edits|
  {
    if |edits| > 0 {
      EditsKeepTwoOptions(ApplyEdit(options, edits[0]), edits[1..]);
    }
  }

  // ---------------------------------------------------------------------
  // Submission

  /** The request body the form sends: the whole form, with the visibility
      flag always present. */
  function BodyOf(f: FormData): (b: CreatePollBody)
    ensures b.creatorName == f.creatorName && b.creatorEmail == f.creatorEmail
    ensures b.question == f.question && b.options == f.options && b.deadline == f.deadline
    ensures b.showRealtimeResults == Some(f.showRealtimeResults)
  {
    CreatePollBody(f.creatorName, f.creatorEmail, f.question, f.options, f.deadline,
      Some(f.showRealtimeResults))
  }

  /** The endpoint's schema reads back exactly the form that was sent,
      including a hidden-results choice. */
  lemma BodyReadsBackAsForm(v: Validators, f: FormData, now: int)
    requires CreatePollOk(v, BodyOf(f), now)
    ensures ParseCreatePoll(v, BodyOf(f), now) ==
      Valid(CreatePollInput(f.creatorName, f.creatorEmail, f.question, f.options, f.deadline,
        f.showRealtimeResults))
  {
  }

  /** The JSON error body of a failed request, as far as the form reads it. */
  datatype ErrorBody = ErrorBody(error: Option<string>, message: Option<string>)

  /** What the server's error responses carry: an `error` field only. */
  function ErrorBodyOf(r: PollsRoute.Response): ErrorBody {
    ErrorBody(r.Error(), None)
  }

  const CreateFailed := "Failed to create poll"

  /** The failure text as the form computes it: from the `message` field. */
  function FailureTextAsWritten(b: ErrorBody): string {
    OrElse(b.message, CreateFailed)
  }

  /** The failure text read from the `error` field the server fills in. */
  function FailureText(b: ErrorBody): string {
    OrElse(b.error, CreateFailed)
  }

  /** Read from `message`, no server failure ever reaches the user: every
      one of them shows the generic text, although each carries its own. */
  lemma AsWrittenHidesServerError(r: PollsRoute.Response)
    requires !r.Created?
    ensures FailureTextAsWritten(ErrorBodyOf(r)) == CreateFailed
    ensures r.Error().Some? && r.Error().value != CreateFailed
  {
  }

  /** Read from `error`, the user sees the server's own text. */
  lemma FailureTextShowsServerError(r: PollsRoute.Response)
    requires !r.Created?
    ensures FailureText(ErrorBodyOf(r)) == r.Error().value
  {
  }

  datatype SubmitResult =
    | ShowFieldErrors(errors: map<string, string>)
    | ShowSubmitError(message: string)
    | Navigate(path: string)
    | RuntimeError          // an exception whose text the runtime supplies

  /** What the form's `fetch` gets back: one of the endpoint's JSON answers,
      a failed fetch, or a reply whose body is not JSON (a proxy's error
      page, say), on which `response.json()` throws. */
  datatype Reply = Answer(response: PollsRoute.Response) | NetworkFailure | NotJson

  /** Submitting the form, as the form is written: a client-side validation
      failure shows the field errors without sending anything; a created poll
      navigates to the success page; any other answer shows the text read
      from the body's `message` field, which the server never fills in, so
      every server failure shows the generic text; a failed fetch or a body
      that is not JSON throws, and the runtime's own text is shown. */
  function Submit(v: Validators, f: FormData, now: int, reply: Reply): (r: SubmitResult)
    ensures !CreatePollOk(v, BodyOf(f), now) ==>
      r == ShowFieldErrors(ErrorMap(CreatePollIssues(v, BodyOf(f), now)))
    ensures CreatePollOk(v, BodyOf(f), now) && reply.Answer? && reply.response.Created? ==>
      r == Navigate("/create/success?pollId=" + reply.response.id + "&code=" + reply.response.accessCode)
    ensures CreatePollOk(v, BodyOf(f), now) && reply.Answer? && !reply.response.Created? ==>
      r == ShowSubmitError(CreateFailed)
    ensures CreatePollOk(v, BodyOf(f), now) && !reply.Answer? ==> r == RuntimeError
  {
    match ParseCreatePoll(v, BodyOf(f), now)
    case Invalid(issues) => ShowFieldErrors(ErrorMap(issues))
    case Valid(_) =>
      match reply
      case NetworkFailure => RuntimeError
      case NotJson => RuntimeError
      case Answer(response) =>
        if response.Created? then
          Navigate("/create/success?pollId=" + response.id + "&code=" + response.accessCode)
        else
          AsWrittenHidesServerError(response);
          ShowSubmitError(FailureTextAsWritten(ErrorBodyOf(response)))
  }

  /** Submitting the form with the failure text read from `error`: the same
      as `Submit` except that a server failure shows the server's own text. */
  function SubmitCorrected(v: Validators, f: FormData, now: int, reply: Reply): (r: SubmitResult)
    ensures !(CreatePollOk(v, BodyOf(f), now) && reply.Answer? && !reply.response.Created?) ==>
      r == Submit(v, f, now, reply)
    ensures CreatePollOk(v, BodyOf(f), now) && reply.Answer? && !reply.response.Created? ==>
      r == ShowSubmitError(reply.response.Error().value)
  {
    match ParseCreatePoll(v, BodyOf(f), now)
    case Invalid(issues) => ShowFieldErrors(ErrorMap(issues))
    case Valid(_) =>
      match reply
      case NetworkFailure => RuntimeError
      case NotJson => RuntimeError
      case Answer(response) =>
        if response.Created? then
          Navigate("/create/success?pollId=" + response.id + "&code=" + response.accessCode)
        else
          FailureTextShowsServerError(response);
          ShowSubmitError(FailureText(ErrorBodyOf(response)))
  }

  /** As written, the form tells no server failure apart from another: a
      valid form gets the same text for every refusal, although the
      corrected form shows a different text for each. */
  lemma SubmitHidesServerError(v: Validators, f: FormData, now: int, r1: PollsRoute.Response, r2: PollsRoute.Response)
    requires CreatePollOk(v, BodyOf(f), now) && !r1.Created? && !r2.Created?
    ensures Submit(v, f, now, Answer(r1)) == Submit(v, f, now, Answer(r2))
    ensures r1 != r2 && !r1.ValidationFailed? && !r2.ValidationFailed? ==>
      SubmitCorrected(v, f, now, Answer(r1)) != SubmitCorrected(v, f, now, Answer(r2))
  {
  }
}

=== FILE: polls_route.dfy ===
/** The poll-creation endpoint as a pure function. The random access-code
    generator is the parameter `draw` (`draw(k)` is the k-th generated
    code), the ids the database assigns are `pollId` and `optionId(i)` for
    the i-th option row, and transport failures are the flags in `Faults`.
    Inserts that reuse a stored id fail as primary-key violations would. */
module PollsRoute {
  import opened Common
  import opened Store
  import opened Validations

  /** How many uniqueness lookups the access-code loop makes at most. */
  const MaxCodeAttempts := 5

  datatype Faults = Faults(
    codeLookupErrors: set<nat>,   // attempts whose uniqueness lookup failed
    pollInsertFails: bool,
    optionsInsertFails: bool,
    rollbackFails: bool)

  datatype Response =
    | ValidationFailed(issues: seq<Issue>)
    | CodeExhausted
    | PollInsertFailed
    | OptionsInsertFailed
    | Created(id: string, accessCode: string, question: string, deadline: string)
    | Unexpected     // the body was not JSON
  {
    function Status(): (code: int)
      ensures code == 201 <==> Created?
      ensures code == 400 <==> ValidationFailed?
      ensures code == 500 <==> CodeExhausted? || PollInsertFailed? || OptionsInsertFailed? || Unexpected?
    {
      match this
      case ValidationFailed(_) => 400
      case Created(_, _, _, _) => 201
      case _ => 500
    }

    /** The `error` field of the JSON body; a created poll has none. */
    function Error(): (e: Option<string>)
      ensures e.None? <==> Created?
    {
      match this
      case ValidationFailed(_) => Some("Validation failed")
      case CodeExhausted => Some("Failed to generate unique access code. Please try again.")
      case PollInsertFailed => Some("Failed to create poll. Please try again.")
      case OptionsInsertFailed => Some("Failed to create poll options. Please try again.")
      case Created(_, _, _, _) => None
      case Unexpected => Some("An unexpected error occurred. Please try again.")
    }
  }

  datatype Outcome = Outcome(response: Response, store: Store)

  // ---------------------------------------------------------------------
  // Access code

  /** The k-th candidate: a generated code, upper-cased. */
  function Candidate(draw: nat -> string, k: nat): string {
    Upper(draw(k))
  }

  /** The uniqueness lookup at some attempt reports the code as taken: the
      query did not fail and matched exactly one poll. A failed query, or
      one matching several polls, yields no row and reads as "free". */
  predicate Taken(polls: seq<Poll>, code: string, lookupFailed: bool) {
    !lookupFailed && Found(polls, code)
  }

  /** A successful lookup of `code` yields a row. */
  predicate Found(polls: seq<Poll>, code: string) {
    SingleOf(PollsWithCode(polls, code)).Row?
  }

  /** The lookup at attempt `k`, of the k-th candidate, reports it as taken. */
  predicate CandidateTaken(polls: seq<Poll>, draw: nat -> string, lookupErrors: set<nat>, k: nat) {
    Taken(polls, Candidate(draw, k), k in lookupErrors)
  }

  datatype CodeChoice = Unique(code: string, lookups: nat) | Exhausted(lookups: nat)

  /** The retry loop from attempt `attempts` on, given which attempts'
      lookups report their candidate as taken: each attempt either keeps
      its candidate or draws the next one. */
  function RetryLoop(draw: nat -> string, taken: nat -> bool, attempts: nat): (r: CodeChoice)
    requires attempts <= MaxCodeAttempts
    ensures r.Unique? ==>
      && attempts < r.lookups <= MaxCodeAttempts
      && r.code == Candidate(draw, r.lookups - 1)
      && !taken(r.lookups - 1)
      && forall k :: attempts <= k < r.lookups - 1 ==> taken(k)
    ensures r.Exhausted? ==>
      && r.lookups == MaxCodeAttempts - attempts
      && forall k :: attempts <= k < MaxCodeAttempts ==> taken(k)
    decreases MaxCodeAttempts - attempts
  {
    if attempts == MaxCodeAttempts then Exhausted(0)
    else if !taken(attempts) then Unique(Candidate(draw, attempts), attempts + 1)
    else
      var rest := RetryLoop(draw, taken, attempts + 1);
      if rest.Unique? then rest else Exhausted(rest.lookups + 1)
  }

  /** The loop depends only on the lookups' reports: two readings that
      report alike on every remaining attempt make the same choice. */
  lemma {:induction false} RetryLoopAgrees(draw: nat -> string, taken1: nat -> bool, taken2: nat -> bool, attempts: nat)
    requires attempts <= MaxCodeAttempts
    requires forall k :: attempts <= k < MaxCodeAttempts ==> taken1(k) == taken2(k)
    ensures RetryLoop(draw, taken1, attempts) == RetryLoop(draw, taken2, attempts)
    decreases MaxCodeAttempts - attempts
  {
    if attempts < MaxCodeAttempts {
      RetryLoopAgrees(draw, taken1, taken2, attempts + 1);
    }
  }

  /** The retry loop as written: a candidate is kept unless its lookup
      succeeded and found a poll. */
  function ChooseCode(polls: seq<Poll>, draw: nat -> string, lookupErrors: set<nat>, attempts: nat): (r: CodeChoice)
    requires attempts <= MaxCodeAttempts
    ensures r.Unique? ==>
      && attempts < r.lookups <= MaxCodeAttempts
      && r.code == Candidate(draw, r.lookups - 1)
      && !CandidateTaken(polls, draw, lookupErrors, r.lookups - 1)
      && forall k :: attempts <= k < r.lookups - 1 ==> CandidateTaken(polls, draw, lookupErrors, k)
    ensures r.Exhausted? ==>
      && r.lookups == MaxCodeAttempts - attempts
      && forall k :: attempts <= k < MaxCodeAttempts ==> CandidateTaken(polls, draw, lookupErrors, k)
  {
    var taken := (k: nat) => CandidateTaken(polls, draw, lookupErrors, k);
    assert forall k: nat :: taken(k) == CandidateTaken(polls, draw, lookupErrors, k);
    RetryLoop(draw, taken, attempts)
  }

  /** The evidently intended reading of a lookup: a failed query says
      nothing about the code, so it counts as a collision and the loop
      draws again. */
  predicate TakenOrUnknown(polls: seq<Poll>, code: string, lookupFailed: bool) {
    lookupFailed || Found(polls, code)
  }

  predicate CandidateTakenOrUnknown(polls: seq<Poll>, draw: nat -> string, lookupErrors: set<nat>, k: nat) {
    TakenOrUnknown(polls, Candidate(draw, k), k in lookupErrors)
  }

  /** The retry loop with a failed lookup read as "taken": a candidate is
      kept only when its lookup succeeded and found no poll. */
  function ChooseCodeCorrected(polls: seq<Poll>, draw: nat -> string, lookupErrors: set<nat>, attempts: nat): (r: CodeChoice)
    requires attempts <= MaxCodeAttempts
    ensures r.Unique? ==>
      && attempts < r.lookups <= MaxCodeAttempts
      && r.code == Candidate(draw, r.lookups - 1)
      && r.lookups - 1 !in lookupErrors
      && !Found(polls, r.code)
      && forall k :: attempts <= k < r.lookups - 1 ==> CandidateTakenOrUnknown(polls, draw, lookupErrors, k)
    ensures r.Exhausted? ==>
      && r.lookups == MaxCodeAttempts - attempts
      && forall k :: attempts <= k < MaxCodeAttempts ==> CandidateTakenOrUnknown(polls, draw, lookupErrors, k)
  {
    var taken := (k: nat) => CandidateTakenOrUnknown(polls, draw, lookupErrors, k);
    assert forall k: nat :: taken(k) == CandidateTakenOrUnknown(polls, draw, lookupErrors, k);
    RetryLoop(draw, taken, attempts)
  }

  /** Without failed lookups the corrected and the as-written loop choose
      alike. */
  lemma NoFailedLookupSameChoice(polls: seq<Poll>, draw: nat -> string, lookupErrors: set<nat>)
    ensures lookupErrors == {} ==>
      ChooseCodeCorrected(polls, draw, lookupErrors, 0) == ChooseCode(polls, draw, lookupErrors, 0)
  {
    if lookupErrors == {} {
      RetryLoopAgrees(draw, (k: nat) => CandidateTakenOrUnknown(polls, draw, lookupErrors, k),
        (k: nat) => CandidateTaken(polls, draw, lookupErrors, k), 0);
    }
  }

  /** Under unique codes the corrected loop only ever keeps an unused code,
      whichever lookups fail. */
  lemma ChooseCodeCorrectedIsFresh(polls: seq<Poll>, draw: nat -> string, lookupErrors: set<nat>)
    requires UniqueAccessCodes(polls)
    ensures ChooseCodeCorrected(polls, draw, lookupErrors, 0).Unique? ==>
      !CodeInUse(polls, ChooseCodeCorrected(polls, draw, lookupErrors, 0).code)
  {
    var c := ChooseCodeCorrected(polls, draw, lookupErrors, 0);
    if c.Unique? {
      PollsWithCodeUnique(polls, c.code);
    }
  }

  // ---------------------------------------------------------------------
  // Rows

  function PollOf(id: string, input: CreatePollInput, code: string): Poll {
    Poll(id, input.creatorName, input.creatorEmail, input.question, input.deadline,
      input.showRealtimeResults, code)
  }

  /** One row per option, in input order, ordered by its index. */
  function OptionRows(pollId: string, options: seq<string>, optionId: nat -> string): (rows: seq<PollOption>)
    ensures |rows| == |options|
    ensures forall i :: 0 <= i < |rows| ==>
      rows[i].pollId == pollId && rows[i].optionText == options[i] && rows[i].displayOrder == i
  {
    seq(|options|, i requires 0 <= i < |options| => PollOption(optionId(i), pollId, options[i], i))
  }

  /** The batch insert succeeds only when no row reuses an id, stored or in the batch. */
  predicate RowsInsertable(stored: seq<PollOption>, rows: seq<PollOption>) {
    && (forall i, j :: 0 <= i < |stored| && 0 <= j < |rows| ==> stored[i].id != rows[j].id)
    && UniqueOptionIds(rows)
  }

  function DeletePoll(s: Store, id: string): Store {
    s.(polls := Filter(s.polls, (p: Poll) => p.id != id))
  }

  /** Deleting the poll just appended under a fresh id restores the store. */
  lemma DeleteUndoesInsert(s: Store, p: Poll)
    requires !HasPollId(s.polls, p.id)
    ensures DeletePoll(s.(polls := s.polls + [p]), p.id) == s
  {
    var keep := (q: Poll) => q.id != p.id;
    FilterAppend(s.polls, [p], keep);
    FilterExtremes(s.polls, keep);
    assert Filter([p], keep) == [];
  }

  // ---------------------------------------------------------------------
  // Endpoint

  /** The steps after a code is chosen: insert the poll, then its option
      rows, deleting the poll again when the rows fail. */
  function Insert(s: Store, input: CreatePollInput, code: string, pollId: string,
                  optionId: nat -> string, f: Faults): (o: Outcome)
    ensures o.response.PollInsertFailed? || o.response.OptionsInsertFailed? || o.response.Created?
    ensures o.response.PollInsertFailed? <==> f.pollInsertFails || HasPollId(s.polls, pollId)
    ensures o.response.PollInsertFailed? ==> o.store == s
    ensures o.response.Created? <==>
      !o.response.PollInsertFailed? && !f.optionsInsertFails && RowsInsertable(s.options, OptionRows(pollId, input.options, optionId))
    ensures o.response.Created? ==>
      && o.response == Created(pollId, code, input.question, input.deadline)
      && o.store == Store(s.polls + [PollOf(pollId, input, code)], s.options + OptionRows(pollId, input.options, optionId), s.votes)
    ensures o.response.OptionsInsertFailed? ==>
      o.store == if f.rollbackFails then s.(polls := s.polls + [PollOf(pollId, input, code)]) else s
  {
    if f.pollInsertFails || HasPollId(s.polls, pollId) then Outcome(PollInsertFailed, s)
    else
      var poll := PollOf(pollId, input, code);
      var s1 := s.(polls := s.polls + [poll]);
      var rows := OptionRows(pollId, input.options, optionId);
      if f.optionsInsertFails || !RowsInsertable(s.options, rows) then
        DeleteUndoesInsert(s, poll);
        Outcome(OptionsInsertFailed, if f.rollbackFails then s1 else DeletePoll(s1, pollId))
      else
        Outcome(Created(pollId, code, input.question, input.deadline), s1.(options := s.options + rows))
  }

  /** `POST /api/polls`. `body` is `None` when the request is not JSON. */
  function Post(s: Store, body: Option<CreatePollBody>, v: Validators, now: int,
                draw: nat -> string, pollId: string, optionId: nat -> string, f: Faults): (o: Outcome)
    // the store changes only on success, or when the rollback delete itself failed
    ensures o.store != s ==> o.response.Created? || (o.response.OptionsInsertFailed? && f.rollbackFails)
    ensures o.response.ValidationFailed? <==> body.Some? && !CreatePollOk(v, body.value, now)
    ensures o.response.ValidationFailed? ==> o.response.issues != []
    // all five candidates collided
    ensures o.response.CodeExhausted? ==>
      forall k :: 0 <= k < MaxCodeAttempts ==> CandidateTaken(s.polls, draw, f.codeLookupErrors, k)
    ensures o.response.PollInsertFailed? ==> f.pollInsertFails || HasPollId(s.polls, pollId)
    // the code is the retry loop's choice, and an exhausted loop stops the request
    ensures o.response.Created? ==>
      && ChooseCode(s.polls, draw, f.codeLookupErrors, 0).Unique?
      && o.response.accessCode == ChooseCode(s.polls, draw, f.codeLookupErrors, 0).code
    ensures body.Some? && CreatePollOk(v, body.value, now) && ChooseCode(s.polls, draw, f.codeLookupErrors, 0).Exhausted? ==>
      o.response == CodeExhausted
    ensures body.None? ==> o.response == Unexpected
    // after a unique code: the poll insert, then the options insert
    ensures body.Some? && CreatePollOk(v, body.value, now) && ChooseCode(s.polls, draw, f.codeLookupErrors, 0).Unique? ==>
      var pollFails := f.pollInsertFails || HasPollId(s.polls, pollId);
      var rowsFail := f.optionsInsertFails || !RowsInsertable(s.options, OptionRows(pollId, body.value.options, optionId));
      && (pollFails ==> o.response == PollInsertFailed)
      && (!pollFails && rowsFail ==> o.response == OptionsInsertFailed)
      && (!pollFails && !rowsFail ==> o.response.Created?)
    // success: the poll and its option rows are appended and echoed back
    ensures o.response.Created? ==>
      && body.Some? && CreatePollOk(v, body.value, now)
      && o.response.id == pollId
      && o.response.question == body.value.question
      && o.response.deadline == body.value.deadline
      && NoLowerAscii(o.response.accessCode)
      && (exists k :: 0 <= k < MaxCodeAttempts && o.response.accessCode == Candidate(draw, k))
      && !HasPollId(s.polls, pollId)
      && o.store.votes == s.votes
      && o.store.polls == s.polls + [Poll(pollId, body.value.creatorName, body.value.creatorEmail,
           body.value.question, body.value.deadline, body.value.showRealtimeResults != Some(false),
           o.response.accessCode)]
      && o.store.options == s.options + OptionRows(pollId, body.value.options, optionId)
    // a failed options insert is rolled back unless the delete fails too
    ensures o.response.OptionsInsertFailed? && !f.rollbackFails ==> o.store == s
    // otherwise the poll stays behind without options
    ensures o.response.OptionsInsertFailed? && f.rollbackFails ==>
      && o.store.options == s.options && o.store.votes == s.votes
      && |o.store.polls| == |s.polls| + 1 && o.store.polls[..|s.polls|] == s.polls
  {
    if body.None? then Outcome(Unexpected, s)
    else
      match ParseCreatePoll(v, body.value, now)
      case Invalid(issues) => Outcome(ValidationFailed(issues), s)
      case Valid(input) =>
        match ChooseCode(s.polls, draw, f.codeLookupErrors, 0)
        case Exhausted(_) => Outcome(CodeExhausted, s)
        case Unique(code, _) => Insert(s, input, code, pollId, optionId, f)
  }

  /** The two lookups tell free from taken: under unique codes and with no
      failed lookup, the code a created poll gets was held by no earlier poll. */
  lemma CreatedCodeIsFresh(s: Store, body: Option<CreatePollBody>, v: Validators, now: int,
                           draw: nat -> string, pollId: string, optionId: nat -> string, f: Faults)
    requires UniqueAccessCodes(s.polls)
    requires f.codeLookupErrors == {}
    ensures var o := Post(s, body, v, now, draw, pollId, optionId, f);
      o.response.Created? ==> !CodeInUse(s.polls, o.response.accessCode)
  {
    var o := Post(s, body, v, now, draw, pollId, optionId, f);
    if o.response.Created? {
      var c := ChooseCode(s.polls, draw, f.codeLookupErrors, 0);
      assert c.Unique? && c.code == o.response.accessCode;
      PollsWithCodeUnique(s.polls, c.code);
    }
  }

  /** As written, a failed uniqueness lookup reads as "free": when the
      first candidate is already some poll's code and its lookup fails, the
      poll is created with that code and two polls share it. */
  lemma FailedLookupReusesCode(s: Store, body: Option<CreatePollBody>, v: Validators, now: int,
                               draw: nat -> string, pollId: string, optionId: nat -> string, f: Faults)
    requires WellFormed(s)
    requires body.Some? && CreatePollOk(v, body.value, now)
    requires CodeInUse(s.polls, Candidate(draw, 0)) && 0 in f.codeLookupErrors
    requires !f.pollInsertFails && !HasPollId(s.polls, pollId)
    requires !f.optionsInsertFails && RowsInsertable(s.options, OptionRows(pollId, body.value.options, optionId))
    ensures var o := Post(s, body, v, now, draw, pollId, optionId, f);
      && o.response.Created?
      && o.response.accessCode == Candidate(draw, 0)
      && !UniqueAccessCodes(o.store.polls)
  {
    var o := Post(s, body, v, now, draw, pollId, optionId, f);
    var i :| 0 <= i < |s.polls| && s.polls[i].accessCode == Candidate(draw, 0);
    assert o.store.polls[i] == s.polls[i];
    assert o.store.polls[|s.polls|].accessCode == Candidate(draw, 0);
  }

  /** One concrete input for the lemma above: a store holding one poll with
      code "ABCDEFGH", a generator whose first code is "abcdefgh", and a
      failed first lookup. */
  lemma FailedLookupExample()
    ensures
      var s := Store([Poll("p1", "Ann", "ann@example.com", "Lunch where?", "2030-01-01", true, Upper("abcdefgh"))], [], []);
      var v := Validators((e: string) => true, (u: string) => true, (d: string) => Some(1));
      var body := CreatePollBody("Bob", "bob@example.com", "Dinner where?", ["Here", "There"], "2030-01-01", None);
      var draw := (k: nat) => "abcdefgh";
      var optionId := (i: nat) => if i == 0 then "o1" else "o2";
      var o := Post(s, Some(body), v, 0, draw, "p2", optionId, Faults({0}, false, false, false));
      && WellFormed(s)
      && o.response.Created? && o.response.accessCode == s.polls[0].accessCode
      && !UniqueAccessCodes(o.store.polls)
  {
    var s := Store([Poll("p1", "Ann", "ann@example.com", "Lunch where?", "2030-01-01", true, Upper("abcdefgh"))], [], []);
    var v := Validators((e: string) => true, (u: string) => true, (d: string) => Some(1));
    var body := CreatePollBody("Bob", "bob@example.com", "Dinner where?", ["Here", "There"], "2030-01-01", None);
    var draw := (k: nat) => "abcdefgh";
    var optionId := (i: nat) => if i == 0 then "o1" else "o2";
    var f := Faults({0}, false, false, false);
    assert OptionsOk(body.options) by {
      assert OptionTextOk(body.options[0]) && OptionTextOk(body.options[1]);
    }
    assert CodeInUse(s.polls, Candidate(draw, 0)) by {
      assert s.polls[0].accessCode == Candidate(draw, 0);
    }
    FailedLookupReusesCode(s, Some(body), v, 0, draw, "p2", optionId, f);
  }

  /** `POST /api/polls` with the corrected retry loop: a failed lookup is
      retried with a new code instead of being read as "free". Everything
      after the choice of code is as in `Post`. */
  function PostCorrected(s: Store, body: Option<CreatePollBody>, v: Validators, now: int,
                         draw: nat -> string, pollId: string, optionId: nat -> string, f: Faults): (o: Outcome)
    // the two endpoints differ only in the code they choose
    ensures ChooseCodeCorrected(s.polls, draw, f.codeLookupErrors, 0) == ChooseCode(s.polls, draw, f.codeLookupErrors, 0) ==>
      o == Post(s, body, v, now, draw, pollId, optionId, f)
    ensures f.codeLookupErrors == {} ==> o == Post(s, body, v, now, draw, pollId, optionId, f)
    ensures o.response.Created? ==>
      && ChooseCodeCorrected(s.polls, draw, f.codeLookupErrors, 0).Unique?
      && o.response.accessCode == ChooseCodeCorrected(s.polls, draw, f.codeLookupErrors, 0).code
    ensures body.Some? && CreatePollOk(v, body.value, now) && ChooseCodeCorrected(s.polls, draw, f.codeLookupErrors, 0).Exhausted? ==>
      o.response == CodeExhausted
    // after a unique corrected code, the same inserts as the endpoint as written
    ensures body.Some? && CreatePollOk(v, body.value, now) && ChooseCodeCorrected(s.polls, draw, f.codeLookupErrors, 0).Unique? ==>
      o == Insert(s, ParseCreatePoll(v, body.value, now).value, ChooseCodeCorrected(s.polls, draw, f.codeLookupErrors, 0).code,
        pollId, optionId, f)
    // poll creation never touches the votes
    ensures o.store.votes == s.votes
  {
    NoFailedLookupSameChoice(s.polls, draw, f.codeLookupErrors);
    if body.None? then Outcome(Unexpected, s)
    else
      match ParseCreatePoll(v, body.value, now)
      case Invalid(issues) => Outcome(ValidationFailed(issues), s)
      case Valid(input) =>
        match ChooseCodeCorrected(s.polls, draw, f.codeLookupErrors, 0)
        case Exhausted(_) => Outcome(CodeExhausted, s)
        case Unique(code, _) => Insert(s, input, code, pollId, optionId, f)
  }

  /** With the corrected loop a created poll never reuses a stored code,
      whichever lookups fail. */
  lemma CorrectedCodeIsFresh(s: Store, body: Option<CreatePollBody>, v: Validators, now: int,
                             draw: nat -> string, pollId: string, optionId: nat -> string, f: Faults)
    requires UniqueAccessCodes(s.polls)
    ensures var o := PostCorrected(s, body, v, now, draw, pollId, optionId, f);
      o.response.Created? ==> !CodeInUse(s.polls, o.response.accessCode)
  {
    ChooseCodeCorrectedIsFresh(s.polls, draw, f.codeLookupErrors);
  }

  /** Appending a poll with a fresh id and an unused code keeps poll ids and
      access codes unique. */
  lemma AppendPollKeepsUnique(polls: seq<Poll>, p: Poll)
    requires UniquePollIds(polls) && UniqueAccessCodes(polls)
    requires !HasPollId(polls, p.id) && !CodeInUse(polls, p.accessCode)
    ensures UniquePollIds(polls + [p]) && UniqueAccessCodes(polls + [p])
  {
  }

  /** An insertable batch of option rows keeps option ids unique. */
  lemma AppendRowsKeepsUnique(options: seq<PollOption>, rows: seq<PollOption>)
    requires UniqueOptionIds(options) && RowsInsertable(options, rows)
    ensures UniqueOptionIds(options + rows)
  {
  }

  /** Sequential poll creation keeps the store well formed when no
      uniqueness lookup fails. */
  lemma PostKeepsWellFormed(s: Store, body: Option<CreatePollBody>, v: Validators, now: int,
                            draw: nat -> string, pollId: string, optionId: nat -> string, f: Faults)
    requires WellFormed(s)
    requires f.codeLookupErrors == {}
    ensures WellFormed(Post(s, body, v, now, draw, pollId, optionId, f).store)
  {
    var o := Post(s, body, v, now, draw, pollId, optionId, f);
    if o.store != s {
      var input := ParseCreatePoll(v, body.value, now).value;
      var c := ChooseCode(s.polls, draw, f.codeLookupErrors, 0);
      var poll := PollOf(pollId, input, c.code);
      assert o.store.polls == s.polls + [poll];
      PollsWithCodeUnique(s.polls, c.code);
      AppendPollKeepsUnique(s.polls, poll);
      if o.response.Created? {
        AppendRowsKeepsUnique(s.options, OptionRows(pollId, input.options, optionId));
      }
    }
  }

  /** With the corrected loop poll creation keeps the store well formed
      under every fault combination, failed code lookups included. */
  lemma PostCorrectedKeepsWellFormed(s: Store, body: Option<CreatePollBody>, v: Validators, now: int,
                                     draw: nat -> string, pollId: string, optionId: nat -> string, f: Faults)
    requires WellFormed(s)
    ensures WellFormed(PostCorrected(s, body, v, now, draw, pollId, optionId, f).store)
  {
    var o := PostCorrected(s, body, v, now, draw, pollId, optionId, f);
    if o.store != s {
      var input := ParseCreatePoll(v, body.value, now).value;
      var c := ChooseCodeCorrected(s.polls, draw, f.codeLookupErrors, 0);
      var poll := PollOf(pollId, input, c.code);
      assert o.store.polls == s.polls + [poll];
      ChooseCodeCorrectedIsFresh(s.polls, draw, f.codeLookupErrors);
      AppendPollKeepsUnique(s.polls, poll);
      if o.response.Created? {
        AppendRowsKeepsUnique(s.options, OptionRows(pollId, input.options, optionId));
      }
    }
  }
}

=== FILE: requests.dfy ===
/** Sequential execution of the two write endpoints. The vote invariant
    holds after any sequence of requests. With the poll endpoint as
    written, the full store invariant holds as long as no access-code
    lookup fails; with its corrected retry loop it holds always.
    Interleaved (concurrent) requests are outside this model. */
module Requests {
  import opened Common
  import opened Store
  import opened Validations
  import VotesRoute
  import PollsRoute

  /** One request together with what its environment supplies: the clock,
      the generated ids and codes, and the transport failures. */
  datatype Request =
    | CreatePoll(pollBody: Option<CreatePollBody>, now: int, draw: nat -> string,
                 pollId: string, optionId: nat -> string, pollFaults: PollsRoute.Faults)
    | SubmitVote(voteBody: Option<VoteBody>, now: int, voteId: string, voteFaults: VotesRoute.Faults)

  /** Which poll-creation endpoint serves the requests: the code as
      written, or the one whose retry loop reads a failed lookup as taken. */
  datatype CodeLoop = AsWritten | Corrected

  function Step(s: Store, v: Validators, loop: CodeLoop, r: Request): Store {
    match r
    case CreatePoll(body, now, draw, pollId, optionId, f) =>
      if loop.AsWritten? then PollsRoute.Post(s, body, v, now, draw, pollId, optionId, f).store
      else PollsRoute.PostCorrected(s, body, v, now, draw, pollId, optionId, f).store
    case SubmitVote(body, now, voteId, f) =>
      VotesRoute.Post(s, body, v, now, voteId, f).store
  }

  function Run(s: Store, v: Validators, loop: CodeLoop, requests: seq<Request>): Store
    decreases |requests|
  {
    if |requests| == 0 then s else Run(Step(s, v, loop, requests[0]), v, loop, requests[1..])
  }

  /** No request can let a voter hold two votes in one poll. */
  lemma {:induction false} RunKeepsOneVotePerVoter(s: Store, v: Validators, loop: CodeLoop, requests: seq<Request>)
    requires OneVotePerVoter(s.votes)
    ensures OneVotePerVoter(Run(s, v, loop, requests).votes)
    decreases |requests|
  {
    if |requests| > 0 {
      match requests[0] {
        case CreatePoll(body, now, draw, pollId, optionId, f) =>
          assert Step(s, v, loop, requests[0]).votes == s.votes;
        case SubmitVote(body, now, voteId, f) =>
          VotesRoute.PostKeepsOneVotePerVoter(s, body, v, now, voteId, f);
      }
      RunKeepsOneVotePerVoter(Step(s, v, loop, requests[0]), v, loop, requests[1..]);
    }
  }

  predicate NoCodeLookupErrors(requests: seq<Request>) {
    forall i :: 0 <= i < |requests| && requests[i].CreatePoll? ==> requests[i].pollFaults.codeLookupErrors == {}
  }

  /** Unique ids, unique access codes and one vote per voter hold after any
      sequence of requests: with the corrected retry loop always, with the
      loop as written when no access-code lookup fails. */
  lemma {:induction false} RunKeepsWellFormed(s: Store, v: Validators, loop: CodeLoop, requests: seq<Request>)
    requires WellFormed(s)
    requires loop.Corrected? || NoCodeLookupErrors(requests)
    ensures WellFormed(Run(s, v, loop, requests))
    decreases |requests|
  {
    if |requests| > 0 {
      match requests[0] {
        case CreatePoll(body, now, draw, pollId, optionId, f) =>
          if loop.AsWritten? {
            PollsRoute.PostKeepsWellFormed(s, body, v, now, draw, pollId, optionId, f);
          } else {
            PollsRoute.PostCorrectedKeepsWellFormed(s, body, v, now, draw, pollId, optionId, f);
          }
        case SubmitVote(body, now, voteId, f) =>
          VotesRoute.PostKeepsWellFormed(s, body, v, now, voteId, f);
      }
      var rest := requests[1..];
      if loop.AsWritten? {
        forall i | 0 <= i < |rest| && rest[i].CreatePoll? ensures rest[i].pollFaults.codeLookupErrors == {} {
          assert rest[i] == requests[i + 1];
        }
      }
      RunKeepsWellFormed(Step(s, v, loop, requests[0]), v, loop, rest);
    }
  }
}

=== FILE: share_url.dfy ===
/** The link a poll is shared by: the configured application URL, or the
    local development address when none is configured, followed by the
    poll's page path. */
module ShareUrl {
  import opened Common

  const DefaultBaseUrl := "http://localhost:3000"
  const PollPath := "/poll/"

  /** The configured base URL when it is set and not empty. */
  function BaseUrl(configured: Option<string>): (b: string)
    ensures configured.Some? && configured.value != "" ==> b == configured.value
    ensures configured.None? || configured.value == "" ==> b == DefaultBaseUrl
    ensures b != ""
  {
    OrElse(configured, DefaultBaseUrl)
  }

  /** The share link of poll `pollId`; the id is inserted as is. */
  function GenerateShareUrl(configured: Option<string>, pollId: string): (url: string)
    ensures BaseUrl(configured) + PollPath <= url
    ensures |url| == |BaseUrl(configured)| + |PollPath| + |pollId|
  {
    BaseUrl(configured) + PollPath + pollId
  }

  /** Reading a poll id back out of a link built on `base`: whatever follows
      the base and the page path, or nothing when the link is not one of
      those. */
  function PollIdOfShareUrl(url: string, base: string): (id: Option<string>)
    ensures id.Some? <==> base + PollPath <= url
    ensures id.Some? ==> url == base + PollPath + id.value
  {
    var prefix := base + PollPath;
    if prefix <= url then Some(url[|prefix|..]) else None
  }

  /** The poll id can always be recovered from its share link. */
  lemma ShareUrlRoundTrip(configured: Option<string>, pollId: string)
    ensures PollIdOfShareUrl(GenerateShareUrl(configured, pollId), BaseUrl(configured)) == Some(pollId)
  {
  }

  /** Different polls get different links. */
  lemma ShareUrlInjective(configured: Option<string>, a: string, b: string)
    requires GenerateShareUrl(configured, a) == GenerateShareUrl(configured, b)
    ensures a == b
  {
    ShareUrlRoundTrip(configured, a);
    ShareUrlRoundTrip(configured, b);
  }
}

=== FILE: store.dfy ===
/** The records of the data model and an in-memory stand-in for the three
    database tables (polls, poll_options, votes), with the lookup rule the
    routes rely on: a `.single()` query yields a row only when exactly one
    row matches; zero rows and several rows both yield the "no single row"
    error (code PGRST116). Timestamps filled in by the database
    (createdAt, updatedAt, submittedAt) are not modelled. */
module Store {
  import opened Common

  datatype Poll = Poll(
    id: string,
    creatorName: string,
    creatorEmail: string,
    question: string,
    deadline: string,
    showRealtimeResults: bool,
    accessCode: string)

  datatype PollOption = PollOption(
    id: string,
    pollId: string,
    optionText: string,
    displayOrder: nat)

  datatype Vote = Vote(
    id: string,
    pollId: string,
    pollOptionId: string,
    voterName: string,
    voterEmail: string)

  datatype Store = Store(polls: seq<Poll>, options: seq<PollOption>, votes: seq<Vote>)

  const Empty := Store([], [], [])

  /** Result of a `.single()` query. */
  datatype Single<+T> = Row(row: T) | NoSingleRow

  function SingleOf<T>(rows: seq<T>): (r: Single<T>)
    ensures r.Row? <==> |rows| == 1
    ensures r.Row? ==> r.row in rows
  {
    if |rows| == 1 then Row(rows[0]) else NoSingleRow
  }

  function PollsWithId(polls: seq<Poll>, id: string): seq<Poll> {
    Filter(polls, (p: Poll) => p.id == id)
  }

  function PollsWithCode(polls: seq<Poll>, code: string): seq<Poll> {
    Filter(polls, (p: Poll) => p.accessCode == code)
  }

  function OptionsOfPoll(options: seq<PollOption>, optionId: string, pollId: string): seq<PollOption> {
    Filter(options, (o: PollOption) => o.id == optionId && o.pollId == pollId)
  }

  function VotesBy(votes: seq<Vote>, pollId: string, email: string): seq<Vote> {
    Filter(votes, (v: Vote) => v.pollId == pollId && v.voterEmail == email)
  }

  predicate HasPollId(polls: seq<Poll>, id: string) {
    exists i :: 0 <= i < |polls| && polls[i].id == id
  }

  predicate HasOptionId(options: seq<PollOption>, id: string) {
    exists i :: 0 <= i < |options| && options[i].id == id
  }

  predicate HasVoteId(votes: seq<Vote>, id: string) {
    exists i :: 0 <= i < |votes| && votes[i].id == id
  }

  /** Some stored poll holds `code` as its access code. */
  predicate CodeInUse(polls: seq<Poll>, code: string) {
    exists i :: 0 <= i < |polls| && polls[i].accessCode == code
  }

  predicate SameVoter(a: Vote, b: Vote) {
    a.pollId == b.pollId && a.voterEmail == b.voterEmail
  }

  /** The key invariant of vote admission: at most one vote per (poll, email). */
  predicate OneVotePerVoter(votes: seq<Vote>) {
    forall i, j :: 0 <= i < j < |votes| ==> !SameVoter(votes[i], votes[j])
  }

  predicate UniqueAccessCodes(polls: seq<Poll>) {
    forall i, j :: 0 <= i < j < |polls| ==> polls[i].accessCode != polls[j].accessCode
  }

  predicate UniquePollIds(polls: seq<Poll>) {
    forall i, j :: 0 <= i < j < |polls| ==> polls[i].id != polls[j].id
  }

  predicate UniqueOptionIds(options: seq<PollOption>) {
    forall i, j :: 0 <= i < j < |options| ==> options[i].id != options[j].id
  }

  predicate UniqueVoteIds(votes: seq<Vote>) {
    forall i, j :: 0 <= i < j < |votes| ==> votes[i].id != votes[j].id
  }

  /** The invariants every store reached by sequential requests keeps. */
  predicate WellFormed(s: Store) {
    && UniquePollIds(s.polls)
    && UniqueAccessCodes(s.polls)
    && UniqueOptionIds(s.options)
    && UniqueVoteIds(s.votes)
    && OneVotePerVoter(s.votes)
  }

  /** Under the one-vote invariant the duplicate query finds the stored vote
      of the voter when there is one, and no row otherwise; it never sees
      several rows. */
  lemma VotesByUnique(votes: seq<Vote>, pollId: string, email: string)
    requires OneVotePerVoter(votes)
    ensures |VotesBy(votes, pollId, email)| <= 1
    ensures |VotesBy(votes, pollId, email)| == 1 <==>
      exists i :: 0 <= i < |votes| && votes[i].pollId == pollId && votes[i].voterEmail == email
  {
    var keep := (v: Vote) => v.pollId == pollId && v.voterEmail == email;
    assert forall i, j :: 0 <= i < j < |votes| ==> !(keep(votes[i]) && keep(votes[j])) by {
      forall i, j | 0 <= i < j < |votes| ensures !(keep(votes[i]) && keep(votes[j])) {
        assert !SameVoter(votes[i], votes[j]);
      }
    }
    FilterUnique(votes, keep);
  }

  /** Under unique poll ids the id query finds the poll exactly when it exists. */
  lemma PollsWithIdUnique(polls: seq<Poll>, id: string)
    requires UniquePollIds(polls)
    ensures |PollsWithId(polls, id)| == 1 <==> HasPollId(polls, id)
    ensures forall i :: 0 <= i < |polls| && polls[i].id == id ==> PollsWithId(polls, id) == [polls[i]]
  {
    var keep := (p: Poll) => p.id == id;
    assert forall i, j :: 0 <= i < j < |polls| ==> !(keep(polls[i]) && keep(polls[j]));
    FilterUnique(polls, keep);
  }

  /** Under unique option ids the option query finds the option exactly when
      an option with that id belongs to that poll. */
  lemma OptionsOfPollUnique(options: seq<PollOption>, optionId: string, pollId: string)
    requires UniqueOptionIds(options)
    ensures |OptionsOfPoll(options, optionId, pollId)| == 1 <==>
      exists i :: 0 <= i < |options| && options[i].id == optionId && options[i].pollId == pollId
  {
    var keep := (o: PollOption) => o.id == optionId && o.pollId == pollId;
    assert forall i, j :: 0 <= i < j < |options| ==> !(keep(options[i]) && keep(options[j]));
    FilterUnique(options, keep);
  }

  /** Under unique access codes the code query finds a poll exactly when the
      code is in use. */
  lemma PollsWithCodeUnique(polls: seq<Poll>, code: string)
    requires UniqueAccessCodes(polls)
    ensures |PollsWithCode(polls, code)| == 1 <==> CodeInUse(polls, code)
  {
    var keep := (p: Poll) => p.accessCode == code;
    assert forall i, j :: 0 <= i < j < |polls| ==> !(keep(polls[i]) && keep(polls[j]));
    FilterUnique(polls, keep);
  }
}

=== FILE: validations.dfy ===
/** The two request schemas (poll creation and vote submission) as issue
    producers. Each field contributes the issues its checks raise, in the
    order the schema declares the fields; a body is accepted exactly when
    no issue is raised. Email syntax, UUID syntax and date parsing are
    library routines and enter as the parameters in `Validators`. */
module Validations {
  import opened Common

  /** The library checks the model does not define: email syntax, UUID
      syntax, and date parsing (`None` is an invalid date). */
  datatype Validators = Validators(
    isEmail: string -> bool,
    isUuid: string -> bool,
    parseDate: string -> Option<int>)

  datatype PathSegment = Key(name: string) | Index(index: nat)

  /** One validation issue: where it is and what it says. */
  datatype Issue = Issue(path: seq<PathSegment>, message: string)

  /** The schema's verdict: the parsed data or the list of issues. */
  datatype Parsed<+T> = Valid(value: T) | Invalid(issues: seq<Issue>)

  const MaxNameLength := 255
  const MinQuestionLength := 5
  const MinOptionCount := 2
  const MaxOptionLength := 500

  const NameRequired := "Name is required"
  const ValidEmailRequired := "Valid email required"
  const QuestionTooShort := "Question must be at least 5 characters"
  const OptionEmpty := "Option cannot be empty"
  const TooFewOptions := "At least 2 options required"
  const DeadlineNotFuture := "Deadline must be in the future"
  const InvalidUuid := "Invalid uuid"

  /** The library's wording for a violated maximum string length. */
  function AtMost(n: nat): string {
    "String must contain at most " + Decimal(n) + " character(s)"
  }

  // ---------------------------------------------------------------------
  // Field checks

  predicate NameOk(s: string) {
    1 <= |s| <= MaxNameLength
  }

  /** `z.string().min(1, 'Name is required').max(255)` on field `field`. */
  function NameIssues(field: string, s: string): (r: seq<Issue>)
    ensures r == [] <==> NameOk(s)
    ensures forall i :: 0 <= i < |r| ==> r[i].path == [Key(field)]
  {
    (if |s| < 1 then [Issue([Key(field)], NameRequired)] else [])
    + (if |s| > MaxNameLength then [Issue([Key(field)], AtMost(MaxNameLength))] else [])
  }

  function EmailIssues(v: Validators, field: string, s: string): (r: seq<Issue>)
    ensures r == [] <==> v.isEmail(s)
  {
    if v.isEmail(s) then [] else [Issue([Key(field)], ValidEmailRequired)]
  }

  function UuidIssues(v: Validators, field: string, s: string): (r: seq<Issue>)
    ensures r == [] <==> v.isUuid(s)
  {
    if v.isUuid(s) then [] else [Issue([Key(field)], InvalidUuid)]
  }

  /** The question has a minimum length and no maximum. */
  function QuestionIssues(s: string): (r: seq<Issue>)
    ensures r == [] <==> |s| >= MinQuestionLength
  {
    if |s| < MinQuestionLength then [Issue([Key("question")], QuestionTooShort)] else []
  }

  predicate OptionTextOk(s: string) {
    1 <= |s| <= MaxOptionLength
  }

  predicate OptionsOk(options: seq<string>) {
    |options| >= MinOptionCount && forall i :: 0 <= i < |options| ==> OptionTextOk(options[i])
  }

  /** Where the issues of option `i` are filed: options.<i>. */
  function OptionPath(i: nat): seq<PathSegment> {
    [Key("options"), Index(i)]
  }

  /** Some issue of `r` is filed at option `i`. */
  predicate FiledAt(r: seq<Issue>, i: nat) {
    exists k :: 0 <= k < |r| && r[k].path == OptionPath(i)
  }

  /** Every issue of `r` is filed at an option from `from` on that breaks
      the length bounds. */
  predicate IssuesAtBadOptions(r: seq<Issue>, options: seq<string>, from: nat) {
    forall k :: 0 <= k < |r| ==>
      exists i :: from <= i < |options| && !OptionTextOk(options[i]) && r[k].path == OptionPath(i)
  }

  /** Every option from `from` on that breaks the length bounds has an
      issue of `r` filed at it. */
  predicate BadOptionsFiled(r: seq<Issue>, options: seq<string>, from: nat) {
    forall i :: from <= i < |options| && !OptionTextOk(options[i]) ==> FiledAt(r, i)
  }

  /** The issues of the single option text `s` at index `i`. */
  function OwnIssues(s: string, i: nat): (r: seq<Issue>)
    ensures r == [] <==> OptionTextOk(s)
    ensures forall k :: 0 <= k < |r| ==> r[k].path == OptionPath(i)
  {
    (if |s| < 1 then [Issue(OptionPath(i), OptionEmpty)] else [])
    + (if |s| > MaxOptionLength then [Issue(OptionPath(i), AtMost(MaxOptionLength))] else [])
  }

  /** Prepending the issues of option `from` to those of the later options
      keeps every issue at its option and every bad option filed. */
  lemma ElementIssuesStep(options: seq<string>, from: nat, here: seq<Issue>, rest: seq<Issue>)
    requires from < |options|
    requires here == [] <==> OptionTextOk(options[from])
    requires forall k :: 0 <= k < |here| ==> here[k].path == OptionPath(from)
    requires IssuesAtBadOptions(rest, options, from + 1) && BadOptionsFiled(rest, options, from + 1)
    ensures IssuesAtBadOptions(here + rest, options, from) && BadOptionsFiled(here + rest, options, from)
  {
    var r := here + rest;
    forall k | 0 <= k < |r|
      ensures exists i :: from <= i < |options| && !OptionTextOk(options[i]) && r[k].path == OptionPath(i)
    {
      if k < |here| {
        assert r[k] == here[k];
      } else {
        assert r[k] == rest[k - |here|];
      }
    }
    forall i | from <= i < |options| && !OptionTextOk(options[i]) ensures FiledAt(r, i) {
      if i == from {
        assert r[0] == here[0];
      } else {
        var k :| 0 <= k < |rest| && rest[k].path == OptionPath(i);
        assert r[|here| + k] == rest[k];
      }
    }
  }

  /** Issues of the elements `options[from..]`: every issue sits at the
      index of an option that raised it, and every bad option raises one
      there. */
  function ElementIssues(options: seq<string>, from: nat): (r: seq<Issue>)
    requires from <= |options|
    ensures r == [] <==> forall i :: from <= i < |options| ==> OptionTextOk(options[i])
    ensures IssuesAtBadOptions(r, options, from)
    ensures BadOptionsFiled(r, options, from)
    decreases |options| - from
  {
    if from == |options| then []
    else
      var here := OwnIssues(options[from], from);
      var rest := ElementIssues(options, from + 1);
      ElementIssuesStep(options, from, here, rest);
      here + rest
  }

  /** The array-length check raises its issue before any element is checked. */
  function OptionsIssues(options: seq<string>): (r: seq<Issue>)
    ensures r == [] <==> OptionsOk(options)
    ensures |options| < MinOptionCount ==> |r| > 0 && r[0] == Issue([Key("options")], TooFewOptions)
  {
    (if |options| < MinOptionCount then [Issue([Key("options")], TooFewOptions)] else [])
    + ElementIssues(options, 0)
  }

  /** A browser `datetime-local` value such as "2025-12-19T07:03" gets its
      seconds appended; any string without a 'T' is left alone. */
  function NormaliseDeadline(d: string): (r: string)
    ensures |d| <= |r| && r[..|d|] == d
    ensures 'T' in d ==> r[|d|..] == ":00"
    ensures 'T' !in d ==> r == d
    ensures 'T' in r <==> 'T' in d
  {
    if 'T' in d then d + ":00" else d
  }

  /** The normalised deadline parses to an instant strictly after `now`;
      an invalid date is never in the future. */
  predicate DeadlineInFuture(v: Validators, d: string, now: int) {
    match v.parseDate(NormaliseDeadline(d))
    case None => false
    case Some(t) => t > now
  }

  function DeadlineIssues(v: Validators, d: string, now: int): (r: seq<Issue>)
    ensures r == [] <==> DeadlineInFuture(v, d, now)
  {
    if DeadlineInFuture(v, d, now) then [] else [Issue([Key("deadline")], DeadlineNotFuture)]
  }

  // ---------------------------------------------------------------------
  // Poll creation

  /** A poll-creation request body; `showRealtimeResults` may be absent. */
  datatype CreatePollBody = CreatePollBody(
    creatorName: string,
    creatorEmail: string,
    question: string,
    options: seq<string>,
    deadline: string,
    showRealtimeResults: Option<bool>)

  /** The validated poll-creation data, with the default filled in. */
  datatype CreatePollInput = CreatePollInput(
    creatorName: string,
    creatorEmail: string,
    question: string,
    options: seq<string>,
    deadline: string,
    showRealtimeResults: bool)

  predicate CreatePollOk(v: Validators, b: CreatePollBody, now: int) {
    && NameOk(b.creatorName)
    && v.isEmail(b.creatorEmail)
    && |b.question| >= MinQuestionLength
    && OptionsOk(b.options)
    && DeadlineInFuture(v, b.deadline, now)
  }

  function CreatePollIssues(v: Validators, b: CreatePollBody, now: int): seq<Issue> {
    NameIssues("creator_name", b.creatorName)
    + EmailIssues(v, "creator_email", b.creatorEmail)
    + QuestionIssues(b.question)
    + OptionsIssues(b.options)
    + DeadlineIssues(v, b.deadline, now)
  }

  /** `createPollSchema.safeParse`: accepted exactly when every field check
      passes, and then the data is the body with the visibility flag
      defaulting to true. */
  function ParseCreatePoll(v: Validators, b: CreatePollBody, now: int): (r: Parsed<CreatePollInput>)
    ensures r.Valid? <==> CreatePollOk(v, b, now)
    ensures r.Valid? ==>
      && r.value.creatorName == b.creatorName
      && r.value.creatorEmail == b.creatorEmail
      && r.value.question == b.question
      && r.value.options == b.options
      && r.value.deadline == b.deadline
      && r.value.showRealtimeResults == (b.showRealtimeResults != Some(false))
    ensures r.Invalid? ==> r.issues != []
  {
    var issues := CreatePollIssues(v, b, now);
    if issues == [] then
      Valid(CreatePollInput(b.creatorName, b.creatorEmail, b.question, b.options, b.deadline,
        match b.showRealtimeResults case Some(flag) => flag case None => true))
    else Invalid(issues)
  }

  // ---------------------------------------------------------------------
  // Vote submission

  datatype VoteBody = VoteBody(
    pollId: string,
    pollOptionId: string,
    voterName: string,
    voterEmail: string)

  predicate VoteOk(v: Validators, b: VoteBody) {
    && v.isUuid(b.pollId)
    && v.isUuid(b.pollOptionId)
    && NameOk(b.voterName)
    && v.isEmail(b.voterEmail)
  }

  function VoteIssues(v: Validators, b: VoteBody): seq<Issue> {
    UuidIssues(v, "poll_id", b.pollId)
    + UuidIssues(v, "poll_option_id", b.pollOptionId)
    + NameIssues("voter_name", b.voterName)
    + EmailIssues(v, "voter_email", b.voterEmail)
  }

  /** `submitVoteSchema.safeParse`: accepted exactly when both ids are UUIDs,
      the name has 1..255 characters and the email is valid; the data is
      the body unchanged. */
  function ParseVote(v: Validators, b: VoteBody): (r: Parsed<VoteBody>)
    ensures r.Valid? <==> VoteOk(v, b)
    ensures r.Valid? ==> r.value == b
    ensures r.Invalid? ==> r.issues != []
  {
    var issues := VoteIssues(v, b);
    if issues == [] then Valid(b) else Invalid(issues)
  }
}

=== FILE: vote_form.dfy ===
/** The voting form: the payload it validates and sends, the message it
    shows for each kind of failed response, and where it goes after a
    recorded vote. */
module VoteForm {
  import opened Common
  import opened Validations
  import opened FieldErrors
  import VotesRoute

  datatype VoteFormData = VoteFormData(voterName: string, voterEmail: string, pollOptionId: string)

  const InitialVoteForm := VoteFormData("", "", "")

  const AlreadyVotedText := "You have already voted in this poll."
  const ClosedText := "Voting has closed for this poll."
  const SubmitFailedText := "Failed to submit vote. Please try again."

  /** The form fields plus the poll id taken from the page, not from the form. */
  function Payload(f: VoteFormData, pollId: string): (b: VoteBody)
    ensures b.pollId == pollId
    ensures b.pollOptionId == f.pollOptionId && b.voterName == f.voterName && b.voterEmail == f.voterEmail
  {
    VoteBody(pollId, f.pollOptionId, f.voterName, f.voterEmail)
  }

  /** The JSON body of the response, as far as the form reads it. */
  datatype ReplyBody = ReplyBody(error: Option<string>)

  /** The server's reply: a status and a body that may fail to parse as
      JSON, or a failed fetch. */
  datatype Reply = Reply(status: int, body: Option<ReplyBody>) | NetworkFailure

  predicate Ok(status: int) {
    200 <= status <= 299
  }

  /** The text shown for a response that is not ok: two statuses have their
      own wording, every other one shows the server's `error` or a fallback. */
  function FailureMessage(status: int, body: ReplyBody): (m: string)
    ensures status == 409 ==> m == AlreadyVotedText
    ensures status == 410 ==> m == ClosedText
    ensures status != 409 && status != 410 ==> m == OrElse(body.error, SubmitFailedText)
  {
    if status == 409 then AlreadyVotedText
    else if status == 410 then ClosedText
    else OrElse(body.error, SubmitFailedText)
  }

  /** After a recorded vote: the results page when results are shown
      before the deadline, the home page otherwise. */
  function RedirectTarget(pollId: string, showRealtimeResults: bool): (path: string)
    ensures showRealtimeResults ==> path == "/poll/" + pollId + "/results"
    ensures !showRealtimeResults ==> path == "/"
  {
    if showRealtimeResults then "/poll/" + pollId + "/results" else "/"
  }

  datatype SubmitResult =
    | ShowFieldErrors(errors: map<string, string>)
    | ShowSubmitError(message: string)
    | RuntimeError                 // an exception whose text the runtime supplies
    | Confirmed(redirect: string)  // confirmation shown, then this redirect

  /** Submitting the form. A client-side validation failure shows the field
      errors and sends nothing. Otherwise the body is parsed before the
      status is looked at, so a reply that is not JSON fails as an
      exception, whatever its status. */
  function Submit(v: Validators, f: VoteFormData, pollId: string, showRealtimeResults: bool, reply: Reply): (r: SubmitResult)
    ensures !VoteOk(v, Payload(f, pollId)) ==>
      r == ShowFieldErrors(ErrorMap(VoteIssues(v, Payload(f, pollId))))
    ensures r.Confirmed? <==>
      VoteOk(v, Payload(f, pollId)) && reply.Reply? && reply.body.Some? && Ok(reply.status)
    ensures r.Confirmed? ==> r.redirect == RedirectTarget(pollId, showRealtimeResults)
    ensures r.ShowSubmitError? ==>
      && reply.Reply? && reply.body.Some? && !Ok(reply.status)
      && r.message == FailureMessage(reply.status, reply.body.value)
    ensures VoteOk(v, Payload(f, pollId)) && reply.Reply? && reply.body.Some? && !Ok(reply.status) ==>
      r == ShowSubmitError(FailureMessage(reply.status, reply.body.value))
    // a failed fetch, or a reply that is not JSON, throws whatever the status
    ensures VoteOk(v, Payload(f, pollId)) && (reply.NetworkFailure? || reply.body.None?) ==>
      r == RuntimeError
  {
    match ParseVote(v, Payload(f, pollId))
    case Invalid(issues) => ShowFieldErrors(ErrorMap(issues))
    case Valid(_) =>
      match reply
      case NetworkFailure => RuntimeError
      case Reply(status, body) =>
        if body.None? then RuntimeError
        else if !Ok(status) then ShowSubmitError(FailureMessage(status, body.value))
        else Confirmed(RedirectTarget(pollId, showRealtimeResults))
  }

  /** The reply the vote endpoint sends for a response. */
  function ReplyOf(resp: VotesRoute.Response): Reply {
    Reply(resp.Status(), Some(ReplyBody(resp.Error())))
  }

  /** Against the vote endpoint, a valid form is confirmed exactly when the
      vote was created; a refusal shows the endpoint's own text except for
      the conflict and closed cases, which have the form's wording. */
  lemma SubmitAgainstEndpoint(v: Validators, f: VoteFormData, pollId: string, show: bool, resp: VotesRoute.Response)
    requires VoteOk(v, Payload(f, pollId))
    ensures var r := Submit(v, f, pollId, show, ReplyOf(resp));
      && (r.Confirmed? <==> resp.Created?)
      && (resp.AlreadyVoted? ==> r == ShowSubmitError(AlreadyVotedText))
      && (resp.VotingClosed? ==> r == ShowSubmitError(ClosedText))
      && (!resp.Created? && !resp.AlreadyVoted? && !resp.VotingClosed? ==>
            r == ShowSubmitError(resp.Error().value))
  {
  }
}

=== FILE: votes_route.dfy ===
/** The vote-submission endpoint as a pure function from a store, a request
    body and the current instant to a response and the new store. The
    checks run in a fixed order (body, poll, deadline, option, duplicate,
    insert) and only the last one writes. Transport failures of the four
    database calls are the flags in `Faults`; the id the database gives a
    new vote is the parameter `voteId`, and an insert that reuses a stored
    id fails as a primary-key violation would. */
module VotesRoute {
  import opened Common
  import opened Store
  import opened Validations

  datatype Faults = Faults(
    pollLookupFails: bool,
    optionLookupFails: bool,
    duplicateCheckFails: bool,
    insertFails: bool)

  const NoFaults := Faults(false, false, false, false)

  datatype Response =
    | ValidationFailed(issues: seq<Issue>)
    | PollNotFound
    | VotingClosed
    | InvalidOption
    | DuplicateCheckFailed
    | AlreadyVoted
    | InsertFailed
    | Created(voteId: string, pollId: string)
    | Unexpected     // the body was not JSON
  {
    function Status(): (code: int)
      ensures code == 201 <==> Created?
      ensures code == 409 <==> AlreadyVoted?
      ensures code == 410 <==> VotingClosed?
      ensures code == 404 <==> PollNotFound?
      ensures code == 400 <==> ValidationFailed? || InvalidOption?
      ensures code == 500 <==> DuplicateCheckFailed? || InsertFailed? || Unexpected?
    {
      match this
      case ValidationFailed(_) => 400
      case PollNotFound => 404
      case VotingClosed => 410
      case InvalidOption => 400
      case DuplicateCheckFailed => 500
      case AlreadyVoted => 409
      case InsertFailed => 500
      case Created(_, _) => 201
      case Unexpected => 500
    }

    /** The `error` field of the JSON body; a created vote has none. */
    function Error(): (e: Option<string>)
      ensures e.None? <==> Created?
    {
      match this
      case ValidationFailed(_) => Some("Validation failed")
      case PollNotFound => Some("Poll not found")
      case VotingClosed => Some("Voting has closed for this poll")
      case InvalidOption => Some("Invalid poll option")
      case DuplicateCheckFailed => Some("Failed to check duplicate vote")
      case AlreadyVoted => Some("You have already voted in this poll")
      case InsertFailed => Some("Failed to submit vote. Please try again.")
      case Created(_, _) => None
      case Unexpected => Some("An unexpected error occurred. Please try again.")
    }
  }

  datatype Outcome = Outcome(response: Response, store: Store)

  /** `now > new Date(deadline)`: false for an unparsable deadline, since
      every comparison with an invalid date is false. */
  predicate DeadlinePassed(v: Validators, p: Poll, now: int) {
    match v.parseDate(p.deadline)
    case None => false
    case Some(t) => now > t
  }

  function VoteOf(id: string, b: VoteBody): Vote {
    Vote(id, b.pollId, b.pollOptionId, b.voterName, b.voterEmail)
  }

  /** The poll lookup succeeds: the query runs and exactly one poll has the id. */
  predicate PollFound(s: Store, b: VoteBody, f: Faults) {
    !f.pollLookupFails && |PollsWithId(s.polls, b.pollId)| == 1
  }

  /** The option lookup succeeds: the query runs and exactly one option has
      the id and belongs to the poll. */
  predicate OptionFound(s: Store, b: VoteBody, f: Faults) {
    !f.optionLookupFails && |OptionsOfPoll(s.options, b.pollOptionId, b.pollId)| == 1
  }

  /** `POST /api/votes`. `body` is `None` when the request is not JSON. */
  function Post(s: Store, body: Option<VoteBody>, v: Validators, now: int, voteId: string, f: Faults): (o: Outcome)
    // only a created vote changes the store, and it adds exactly that vote
    ensures o.store != s ==> o.response.Created?
    ensures o.response.Created? ==>
      && body.Some?
      && o.response == Created(voteId, body.value.pollId)
      && o.store == s.(votes := s.votes + [VoteOf(voteId, body.value)])
    // the body is checked before any lookup
    ensures o.response.ValidationFailed? <==> body.Some? && !VoteOk(v, body.value)
    ensures o.response.ValidationFailed? ==> o.response.issues != []
    // an unknown poll is reported before the deadline, option and duplicate checks
    ensures body.Some? && VoteOk(v, body.value) && !HasPollId(s.polls, body.value.pollId) ==>
      o.response == PollNotFound
    // closed only when now is strictly after the poll's deadline
    ensures o.response.VotingClosed? ==>
      && body.Some?
      && exists i :: 0 <= i < |s.polls| && s.polls[i].id == body.value.pollId && DeadlinePassed(v, s.polls[i], now)
    // a conflict means a vote by this voter for this poll is already stored
    ensures o.response.AlreadyVoted? ==>
      && body.Some?
      && exists i :: 0 <= i < |s.votes| && s.votes[i].pollId == body.value.pollId
                                        && s.votes[i].voterEmail == body.value.voterEmail
    // an option is refused unless exactly one option row has that id and poll
    ensures o.response.InvalidOption? ==>
      && body.Some?
      && (f.optionLookupFails || |OptionsOfPoll(s.options, body.value.pollOptionId, body.value.pollId)| != 1)
    ensures o.response.DuplicateCheckFailed? ==> f.duplicateCheckFails
    ensures body.Some? && VoteOk(v, body.value) && !PollFound(s, body.value, f) ==> o.response == PollNotFound
    // the checks after the poll lookup, each in its turn
    ensures body.None? ==> o.response == Unexpected
    ensures body.Some? && VoteOk(v, body.value) && PollFound(s, body.value, f) ==>
      var b := body.value;
      var closed := DeadlinePassed(v, PollsWithId(s.polls, b.pollId)[0], now);
      var voted := |VotesBy(s.votes, b.pollId, b.voterEmail)| == 1;
      && (closed ==> o.response == VotingClosed)
      && (!closed && !OptionFound(s, b, f) ==> o.response == InvalidOption)
      && (!closed && OptionFound(s, b, f) && f.duplicateCheckFails ==> o.response == DuplicateCheckFailed)
      && (!closed && OptionFound(s, b, f) && !f.duplicateCheckFails && voted ==> o.response == AlreadyVoted)
      && (!closed && OptionFound(s, b, f) && !f.duplicateCheckFails && !voted ==>
            o.response == (if f.insertFails || HasVoteId(s.votes, voteId) then InsertFailed else Created(voteId, b.pollId)))
    ensures o.response.InsertFailed? ==> f.insertFails || HasVoteId(s.votes, voteId)
  {
    if body.None? then Outcome(Unexpected, s)
    else
      match ParseVote(v, body.value)
      case Invalid(issues) => Outcome(ValidationFailed(issues), s)
      case Valid(b) =>
        var poll := SingleOf(PollsWithId(s.polls, b.pollId));
        if f.pollLookupFails || poll.NoSingleRow? then Outcome(PollNotFound, s)
        else if DeadlinePassed(v, poll.row, now) then Outcome(VotingClosed, s)
        else if f.optionLookupFails || SingleOf(OptionsOfPoll(s.options, b.pollOptionId, b.pollId)).NoSingleRow? then
          Outcome(InvalidOption, s)
        else if f.duplicateCheckFails then Outcome(DuplicateCheckFailed, s)
        else
          var existing := SingleOf(VotesBy(s.votes, b.pollId, b.voterEmail));
          if existing.Row? then Outcome(AlreadyVoted, s)
          else if f.insertFails || HasVoteId(s.votes, voteId) then Outcome(InsertFailed, s)
          else Outcome(Created(voteId, b.pollId), s.(votes := s.votes + [VoteOf(voteId, b)]))
  }

  /** A vote submitted at exactly the deadline instant is not refused as closed. */
  lemma VoteAtDeadlineIsOpen(s: Store, b: VoteBody, v: Validators, now: int, voteId: string, f: Faults)
    requires forall i :: 0 <= i < |s.polls| && s.polls[i].id == b.pollId ==> v.parseDate(s.polls[i].deadline) == Some(now)
    ensures Post(s, Some(b), v, now, voteId, f).response != VotingClosed
  {
  }

  /** A valid vote for an open poll that names an option of another poll (or
      no option at all) is refused as an invalid option. */
  lemma ForeignOptionRefused(s: Store, b: VoteBody, v: Validators, now: int, voteId: string, f: Faults)
    requires WellFormed(s)
    requires VoteOk(v, b) && !f.pollLookupFails
    requires exists i :: 0 <= i < |s.polls| && s.polls[i].id == b.pollId && !DeadlinePassed(v, s.polls[i], now)
    requires forall k :: 0 <= k < |s.options| ==> !(s.options[k].id == b.pollOptionId && s.options[k].pollId == b.pollId)
    ensures Post(s, Some(b), v, now, voteId, f).response == InvalidOption
  {
    PollsWithIdUnique(s.polls, b.pollId);
    OptionsOfPollUnique(s.options, b.pollOptionId, b.pollId);
  }

  /** A voter who already has a vote in the poll gets 409, and nothing is
      written, once the earlier checks pass. */
  lemma ExistingVoteConflicts(s: Store, b: VoteBody, v: Validators, now: int, voteId: string, f: Faults)
    requires OneVotePerVoter(s.votes)
    requires VoteOk(v, b) && PollFound(s, b, f) && OptionFound(s, b, f) && !f.duplicateCheckFails
    requires !DeadlinePassed(v, PollsWithId(s.polls, b.pollId)[0], now)
    requires exists i :: 0 <= i < |s.votes| && s.votes[i].pollId == b.pollId && s.votes[i].voterEmail == b.voterEmail
    ensures Post(s, Some(b), v, now, voteId, f) == Outcome(AlreadyVoted, s)
  {
    VotesByUnique(s.votes, b.pollId, b.voterEmail);
  }

  /** Every submission keeps "at most one vote per (poll, email)". */
  lemma PostKeepsOneVotePerVoter(s: Store, body: Option<VoteBody>, v: Validators, now: int, voteId: string, f: Faults)
    requires OneVotePerVoter(s.votes)
    ensures OneVotePerVoter(Post(s, body, v, now, voteId, f).store.votes)
  {
    var o := Post(s, body, v, now, voteId, f);
    if o.response.Created? {
      var b := body.value;
      VotesByUnique(s.votes, b.pollId, b.voterEmail);
      var votes' := o.store.votes;
      forall i, j | 0 <= i < j < |votes'| ensures !SameVoter(votes'[i], votes'[j]) {
        if j == |s.votes| {
          assert votes'[j] == VoteOf(voteId, b);
          assert votes'[i] == s.votes[i];
        } else {
          assert votes'[i] == s.votes[i] && votes'[j] == s.votes[j];
        }
      }
    }
  }

  /** Appending a vote under an unused id keeps vote ids unique. */
  lemma AppendVoteKeepsUniqueIds(votes: seq<Vote>, x: Vote)
    requires UniqueVoteIds(votes) && !HasVoteId(votes, x.id)
    ensures UniqueVoteIds(votes + [x])
  {
  }

  /** Every submission keeps the store well formed. */
  lemma PostKeepsWellFormed(s: Store, body: Option<VoteBody>, v: Validators, now: int, voteId: string, f: Faults)
    requires WellFormed(s)
    ensures WellFormed(Post(s, body, v, now, voteId, f).store)
  {
    PostKeepsOneVotePerVoter(s, body, v, now, voteId, f);
    var o := Post(s, body, v, now, voteId, f);
    if o.response.Created? {
      AppendVoteKeepsUniqueIds(s.votes, VoteOf(voteId, body.value));
    }
  }

  /** With no transport failure, once a vote by a voter for a poll has been
      created, a second submission by the same voter for the same poll is
      not admitted, whatever option it names, and leaves the store as is. */
  lemma {:induction false} SecondVoteNotAdmitted(
    s: Store, b: VoteBody, b2: VoteBody, v: Validators, now: int, now2: int, id: string, id2: string)
    requires OneVotePerVoter(s.votes)
    requires Post(s, Some(b), v, now, id, NoFaults).response.Created?
    requires b2.pollId == b.pollId && b2.voterEmail == b.voterEmail
    ensures var s1 := Post(s, Some(b), v, now, id, NoFaults).store;
      && !Post(s1, Some(b2), v, now2, id2, NoFaults).response.Created?
      && Post(s1, Some(b2), v, now2, id2, NoFaults).store == s1
  {
    var s1 := Post(s, Some(b), v, now, id, NoFaults).store;
    VotesByUnique(s.votes, b.pollId, b.voterEmail);
    var keep := (x: Vote) => x.pollId == b.pollId && x.voterEmail == b.voterEmail;
    FilterAppend(s.votes, [VoteOf(id, b)], keep);
    assert |VotesBy(s1.votes, b.pollId, b.voterEmail)| == 1;
  }

  /** Under the store invariants and with no transport failure, a valid vote
      is admitted exactly when its poll exists and has not closed, its option
      belongs to that poll, the voter has not voted in that poll yet, and the
      new id is unused. */
  lemma AdmissionConditions(s: Store, b: VoteBody, v: Validators, now: int, voteId: string)
    requires WellFormed(s)
    ensures Post(s, Some(b), v, now, voteId, NoFaults).response.Created? <==>
      && VoteOk(v, b)
      && (exists i :: 0 <= i < |s.polls| && s.polls[i].id == b.pollId && !DeadlinePassed(v, s.polls[i], now))
      && (exists k :: 0 <= k < |s.options| && s.options[k].id == b.pollOptionId && s.options[k].pollId == b.pollId)
      && (forall j :: 0 <= j < |s.votes| ==> !(s.votes[j].pollId == b.pollId && s.votes[j].voterEmail == b.voterEmail))
      && !HasVoteId(s.votes, voteId)
  {
    PollsWithIdUnique(s.polls, b.pollId);
    OptionsOfPollUnique(s.options, b.pollOptionId, b.pollId);
    VotesByUnique(s.votes, b.pollId, b.voterEmail);
  }
}
